=== FILE: README.md ===
# jobnova front end: a Dafny model

This project models the behaviour of the jobnova front end, a Next.js app.
A candidate browses matched jobs, likes them, asks an AI for a structured
job-fit report on a resume, and starts a voice interview with an AI
interviewer. The model covers these parts:

- **Listing** (`listing.dfy`):
  - `JobData`: the sample jobs.
  - `JobCard`: the match-colour band, the heart, and what a click on a card does.
  - `Home`: the liked, applied and matched id lists, the like toggle, the card list with each heart filled by the liked list, and the effect that copies the list lengths into the header counters. `Home.HomePage` is a class whose fields are the page's state.
- **Job-fit route** (`job_fit.dfy`, module `JobFit`):
  - the report schema, as a typed `Report` with a `Valid` predicate and a parser from JSON that accepts exactly the values conforming to the schema at every depth (`JobFit.ParseReportAcceptsConforming`);
  - the encoder back to JSON, with a round-trip proof;
  - the analyst prompt and its stated weights;
  - the POST handler's guard, success and error responses.
- **Create-interview route** (`create_interview.dfy`): the guard, the interviewer prompt with its four holes filled, and the responses.
- **Create-assistant route** (`create_assistant.dfy`): the destructuring of the body, the four-field guard, the fixed assistant configuration, and the responses.
- **Job-detail page** (`job_detailed.dfy`):
  - how a report is rendered, and what the page shows: the interview options, or the main view with its side panel;
  - the request bodies the page sends;
  - the two-request chain that creates an interview;
  - the page controller: the class `JobDetailPage`, with a method per handler. Each asynchronous handler is split at its `await` into a start method and a finish method that takes the awaited outcome as an input.
- **Voice widget** (`vapi_widget.dfy`):
  - the handlers registered on the voice SDK's events, as the pure transition `Handle` over a `CallState`;
  - the class `Widget`, whose methods are each proved to perform `Handle`;
  - the call and mute buttons, and the transcript panel.

`js.dfy` holds the JavaScript semantics the code relies on:
- parsed JSON values, with `undefined` as `None`;
- truthiness;
- property access, which throws a TypeError on `null`;
- `${…}` template-literal conversion, including decimal printing of integers;
- the shared "Failed to check" catch response.

Route handlers are functions from the parsed request body, and from the outcome of the SDK call, to the response. `JSON.stringify` is a parameter `serialize`.

Behaviours of the code worth knowing:

- A `call-end` event is not de-duplicated. Every one hands the transcript to `onCallEnd` again (`VapiWidget.RunDeliveries`, `VapiWidget.UserUtteranceThenTwoCallEnds`).
- The transcript is never reset, not even by a new call (`VapiWidget.RunTranscript`).
- Transcript roles are the raw strings the SDK sends.
- The mute button sends `setMuted(!isMuted())`, with `isMuted()` read when the widget last rendered, whenever the SDK client exists, whether or not a call is connected (`VapiWidget.Widget.PressMicButton`).
- Neither the question count nor the brutality level is range-checked, by the page or by the route (`CreateInterview.CountAndLevelUnchecked`).
- Both routes refuse with non-ok statuses and never answer ok with an `error` field. So the page's "error in body" branches are unreachable from these routes, and a refusal makes the page throw `API error <status>` (`JobDetailed.OkAnswersCarryNoError`, `JobDetailed.EmptyResumeNeverNavigates`).

## Model

| member | source | states |
|---|---|---|
| Js.Get | app/api/jobFit/route.ts:70-72 | `body.job` throws exactly when the body is `null`, with the TypeError message naming the key; otherwise it is the object's own field or `undefined` |
| Js.Member | app/api/create-interview/route.ts:11-14 | a property read yields a value only for an object that has the key, and then that field's value |
| Js.FailedToCheck | app/api/jobFit/route.ts:183-189 | the catch block answers 500 with the single key `error` = "Failed to check: " + the error's message, or "Unknown error occurred" for a non-Error |
| Js.TemplateString | app/api/create-interview/route.ts:27-30 | `${v}` of a string is the string itself and of a number is its decimal form |
| JobData.SampleJobs | lib/data/jobs.ts:39-201 | the sample data holds the three listings |
| JobCard.MatchColor | components/ui/Job/JobCard.tsx:47-51 | green exactly from 80, yellow exactly for 60..79, orange exactly below 60 (the home page's copy at app/page.tsx:36-40 is identical) |
| JobCard.MatchColorMonotone | components/ui/Job/JobCard.tsx:47-51 | a higher match never gets a lower colour band |
| JobCard.View | components/ui/Job/JobCard.tsx:111-115 | the heart is filled exactly when the job is liked; the badge band is the match's band |
| JobCard.CardPath | components/ui/Job/JobCard.tsx:57 | a card navigates to a path under `/jobs/` |
| JobCard.CardPathInjective | components/ui/Job/JobCard.tsx:57 | distinct job ids navigate to distinct paths |
| JobCard.ClickActions | components/ui/Job/JobCard.tsx:107-108 | as written: every click navigates to the job page, and a like is toggled exactly when the heart was clicked |
| JobCard.HeartClickAlsoNavigates | components/ui/Job/JobCard.tsx:107-108 | as written: a heart click toggles the like and then also navigates to `/jobs/<id>` |
| JobCard.IntendedClickActions | components/ui/Job/JobCard.tsx:107-108 | corrected: the heart only toggles the like; any other click only navigates |
| Home.Toggled | app/page.tsx:29-33 | a liked id is removed; an unliked id is appended at the end |
| Home.WithoutCounts | app/page.tsx:31 | the filter drops every occurrence of the id and keeps every other id exactly as often as before |
| Home.WithoutMembership | app/page.tsx:31 | after the filter, an id is present exactly when it was present before and is not the removed one |
| Home.WithoutIsSubsequence | app/page.tsx:31 | the filter keeps the remaining ids in their original order |
| Home.ToggleMembership | app/page.tsx:28-34 | a toggle flips the membership of the toggled id and leaves every other id's membership unchanged |
| Home.ToggleTwice | app/page.tsx:28-34 | toggling the same id twice restores the set of liked ids |
| Home.WithoutKeepsDistinct | app/page.tsx:31 | filtering a duplicate-free list keeps it duplicate-free |
| Home.ToggleKeepsDistinct | app/page.tsx:28-34 | a duplicate-free liked list stays duplicate-free under toggling |
| Home.DistinctLengthCountsIds | app/page.tsx:22-26 | a duplicate-free list is as long as the set of ids it holds, so the liked counter counts the liked jobs |
| Home.LikedIds | app/page.tsx:17 | the initial liked list contains exactly the ids of the jobs marked liked |
| Home.LikedPositions | app/page.tsx:17 | the positions of the liked listings: increasing, each liked, and every liked listing's position among them |
| Home.LikedIdsInListingOrder | app/page.tsx:17 | the liked list is, one for one and in listing order, the ids at the liked positions (so an id repeats as often as liked listings carry it) |
| Home.Ids | app/page.tsx:19 | the matched list holds every job's id, in listing order |
| Home.SampleInitialLists | app/page.tsx:17-19 | on the sample data, job 2 starts liked and jobs 1, 2, 3 are matched; jobs 2 and 3 get the green band and job 1 the yellow one |
| Home.HomePage.constructor | app/page.tsx:17-19 | liked = the jobs marked liked, applied = [1], matched = all ids, counters start at 0 |
| Home.HomePage.ToggleLike | app/page.tsx:28-34 | the liked list becomes `Toggled` of the old list, so the toggled job's liked state flips and every other job's stays |
| Home.HomePage.IsLiked | app/page.tsx:63 | a job is liked exactly when some position of the liked list holds its id |
| Home.HomePage.Cards | app/page.tsx:62-72 | one card per job in listing order; each heart is filled exactly when that job's id is in the liked list, and each badge has that job's match band |
| Home.HomePage.SyncCounts | app/page.tsx:22-26 | the three header counters become the lengths of the three lists |
| VapiWidget.Initial | components/ui/Job/VapiWidget.tsx:27-31 | not connected, not speaking, no speaker, empty transcript, nothing delivered |
| VapiWidget.Handle | components/ui/Job/VapiWidget.tsx:42-82 | call-start only connects. Call-end disconnects, clears speaking and the speaker, and delivers the current transcript. Speech-start marks the user as speaking; speech-end clears both. A transcript message appends exactly its (role, text) and only an assistant one changes the speaker. Other messages and errors change nothing |
| VapiWidget.RunTranscript | components/ui/Job/VapiWidget.tsx:66-77 | over any event stream, the transcript is the old one followed by exactly the stream's transcript messages, in order (append-only, never reset) |
| VapiWidget.RunDeliveries | components/ui/Job/VapiWidget.tsx:46-52 | the callback fires once per call-end event, and earlier deliveries are never altered |
| VapiWidget.HandlePreserves | components/ui/Job/VapiWidget.tsx:42-77 | each event keeps both invariants: every delivered transcript is a prefix of the current one, and the user is the speaker only while `isSpeaking` |
| VapiWidget.RunPreserves | components/ui/Job/VapiWidget.tsx:42-77 | any event stream keeps both invariants |
| VapiWidget.ReachableInvariants | components/ui/Job/VapiWidget.tsx:27-82 | every state reachable from mount satisfies both invariants |
| VapiWidget.UserUtteranceThenTwoCallEnds | components/ui/Job/VapiWidget.tsx:46-77 | a call with one user utterance delivers [("user","hi")]; a second call-end delivers it again |
| VapiWidget.MainButtonCommand | components/ui/Job/VapiWidget.tsx:93-100 | the main button stops exactly when connected, and otherwise starts the configured assistant |
| VapiWidget.MicButtonCommand | components/ui/Job/VapiWidget.tsx:211-227 | the mic button sends `setMuted` of the opposite of the mute state it was rendered with |
| VapiWidget.Widget.constructor | components/ui/Job/VapiWidget.tsx:27-33 | the fields start at `Initial`, the panel is closed, there is no client yet, and no commands have been sent |
| VapiWidget.Widget.Mount | components/ui/Job/VapiWidget.tsx:35-42 | the mount effect creates the SDK client |
| VapiWidget.Widget.Unmount | components/ui/Job/VapiWidget.tsx:84-86 | cleanup sends exactly one `stop` |
| VapiWidget.Widget.OnCallStart | components/ui/Job/VapiWidget.tsx:42-44 | the fields become `Handle(old, call-start)`; client, panel and commands are unchanged |
| VapiWidget.Widget.OnCallEnd | components/ui/Job/VapiWidget.tsx:46-52 | the fields become `Handle(old, call-end)`; nothing else changes |
| VapiWidget.Widget.OnSpeechStart | components/ui/Job/VapiWidget.tsx:54-58 | the fields become `Handle(old, speech-start)`; nothing else changes |
| VapiWidget.Widget.OnSpeechEnd | components/ui/Job/VapiWidget.tsx:60-64 | the fields become `Handle(old, speech-end)`; nothing else changes |
| VapiWidget.Widget.OnMessage | components/ui/Job/VapiWidget.tsx:66-78 | the fields become `Handle(old, message)`; nothing else changes |
| VapiWidget.Widget.OnError | components/ui/Job/VapiWidget.tsx:80-82 | the error handler changes no state |
| VapiWidget.Widget.PressMainButton | components/ui/Job/VapiWidget.tsx:204 | with a client, exactly `MainButtonCommand` is sent; without one, nothing is |
| VapiWidget.Widget.PressMicButton | components/ui/Job/VapiWidget.tsx:211-227 | with a client, exactly one `setMuted(!renderedMuted)` is sent, where `renderedMuted` is `isMuted()` at the last render; without one, nothing changes; the widget keeps no mute state |
| VapiWidget.Widget.ToggleTranscriptPanel | components/ui/Job/VapiWidget.tsx:233 | the transcript panel's visibility flips |
| VapiWidget.Widget.CloseTranscriptPanel | components/ui/Job/VapiWidget.tsx:160 | the transcript panel is closed |
| CreateInterview.Interviewer | app/api/create-interview/route.ts:23-135 | the interviewer instructions carry five brutality-level profiles |
| CreateInterview.FillCarriesInputs | app/api/create-interview/route.ts:27-37 | for any instructions, the filled prompt contains each input verbatim between its own label and the next one. The count also fills "exactly N questions", and every profile is present |
| CreateInterview.InterviewPromptCarriesInputs | app/api/create-interview/route.ts:23-135 | the route's prompt contains the serialised job, the resume, the count (twice) and the level, each between its own labels. It contains all five level profiles whatever the level |
| CreateInterview.Post | app/api/create-interview/route.ts:8-150 | Errors: an unparseable body answers "Failed to check: <parse error>"; a `null` body answers the TypeError for `job`. A 400 with the fixed message, and no model call, comes exactly when job or resume is falsy. Otherwise the prompt is the interviewer prompt over `JSON.stringify(job)`, `${resume}`, `${num_questions}` and `${brutality_level}`. 200 with `{response: text}` exactly when the model produced text; a model failure answers `FailedToCheck` |
| CreateInterview.CountAndLevelUnchecked | app/api/create-interview/route.ts:13-30 | a count of -3 and a missing level are not refused: they reach the prompt as "-3" and "undefined" |
| JobFit.ParseStatus | app/api/jobFit/route.ts:9 | a status is accepted exactly when it is "pass", "warning" or "fail", and the accepted value names it |
| JobFit.ParseVerdict | app/api/jobFit/route.ts:10-15 | a verdict is accepted exactly when it is one of the four fit names |
| JobFit.ParsePercent | app/api/jobFit/route.ts:21 | a score is accepted exactly when it is an integer from 0 to 100 |
| JobFit.ParseText | app/api/jobFit/route.ts:33 | a summary is accepted exactly when it is a string |
| JobFit.ParseTexts | app/api/jobFit/route.ts:34 | a list is accepted exactly when it is an array of strings, and yields those strings in order |
| JobFit.ParseScores | app/api/jobFit/route.ts:23-28 | accepted scores are all in range |
| JobFit.ParseReport | app/api/jobFit/route.ts:19-66 | every accepted report satisfies the schema's constraints |
| JobFit.ParseReportAcceptsConforming | app/api/jobFit/route.ts:19-66 | a value is accepted exactly when every declared field, at every depth, is present with its declared type, range or vocabulary |
| JobFit.ParseScoresAcceptsConforming | app/api/jobFit/route.ts:23-28 | scores are accepted exactly when all four are integers from 0 to 100 |
| JobFit.ParseSectionAcceptsConforming | app/api/jobFit/route.ts:31-35 | a section is accepted exactly when it has a status from the vocabulary, a string summary and a string-array evidence |
| JobFit.ParseSkillsAlignmentAcceptsConforming | app/api/jobFit/route.ts:49-55 | the skills section is accepted exactly when its status and its three lists and summary have their declared types |
| JobFit.ParseSectionsAcceptsConforming | app/api/jobFit/route.ts:30-56 | the sections are accepted exactly when each of the four conforms |
| JobFit.ParseRecommendationAcceptsConforming | app/api/jobFit/route.ts:61-64 | a recommendation is accepted exactly when it has a verdict name and a string rationale |
| JobFit.ParseTextsValue | app/api/jobFit/route.ts:34 | an accepted string array is exactly the JSON array of the strings it yields |
| JobFit.ParseScoresValues | app/api/jobFit/route.ts:23-28 | each accepted score is the number the input holds under that score's key |
| JobFit.ParseSectionValues | app/api/jobFit/route.ts:31-35 | an accepted section's status, summary and evidence are the input's own `status`, `summary` and `evidence` members |
| JobFit.ParseSkillsAlignmentValues | app/api/jobFit/route.ts:49-55 | the accepted skills section's status, three lists and summary are the input's own members under those keys |
| JobFit.ParseSectionsValues | app/api/jobFit/route.ts:30-56 | each accepted section is what its own parser reads from the input member of that name |
| JobFit.ParseRecommendationValues | app/api/jobFit/route.ts:61-64 | the accepted verdict and rationale are the input's own `verdict` and `rationale` members |
| JobFit.ParseReportValues | app/api/jobFit/route.ts:19-66 | an accepted report's overall match, strengths and gaps are the input's own members, and its scores, sections and recommendation are what their parsers read from the input's members |
| JobFit.MissingKeyRejected | app/api/jobFit/route.ts:19-66 | an object missing any of the report's six keys is rejected |
| JobFit.MissingScoreRejected | app/api/jobFit/route.ts:23-28 | a scores object lacking any of the four scores is rejected |
| JobFit.MissingSectionFieldRejected | app/api/jobFit/route.ts:31-47 | a titled section lacking its status, summary or evidence is rejected |
| JobFit.OutOfRangeScoreRejected | app/api/jobFit/route.ts:23-28 | a score outside 0..100 for any of the four scores is rejected |
| JobFit.TextsRoundTrip | app/api/jobFit/route.ts:34 | a list of strings parses back from its JSON |
| JobFit.SectionRoundTrip | app/api/jobFit/route.ts:31-35 | a section parses back from its JSON |
| JobFit.SkillsAlignmentRoundTrip | app/api/jobFit/route.ts:49-55 | the skills-alignment section parses back from its JSON |
| JobFit.SectionsRoundTrip | app/api/jobFit/route.ts:30-56 | the four sections parse back from their JSON |
| JobFit.ScoresRoundTrip | app/api/jobFit/route.ts:23-28 | valid scores parse back from their JSON |
| JobFit.RecommendationRoundTrip | app/api/jobFit/route.ts:61-64 | a recommendation parses back from its JSON |
| JobFit.ParseReportFields | app/api/jobFit/route.ts:19-66 | a report is accepted when each of its six fields parses, and is then made of the parsed fields |
| JobFit.ReportJsonMembers | app/api/jobFit/route.ts:182 | the six members of a serialised report are the serialised fields |
| JobFit.ReportRoundTrip | app/api/jobFit/route.ts:19-66 | every valid report parses back, unchanged, from its JSON |
| JobFit.FitPromptCarriesInputs | app/api/jobFit/route.ts:102-117 | the prompt contains the serialised job, the resume heading and the resume verbatim, in that order, and the weight rules |
| JobFit.WeightedOverallIsPercent | app/api/jobFit/route.ts:111-117 | the weights sum to 100, so the weighted average of valid scores is a valid score |
| JobFit.OverallNotChecked | app/api/jobFit/route.ts:111-117 | a report whose overall match disagrees with the weighted average is still accepted unchanged |
| JobFit.Post | app/api/jobFit/route.ts:68-191 | The parse-error, `null`-body and 400 cases are as for create-interview. Otherwise the prompt is the fit prompt over `JSON.stringify(job)` and `${resume}`. 200 with `{response: report}` exactly when the model's object passes the schema. An object that fails the schema answers `FailedToCheck` with the no-object error; a call failure answers `FailedToCheck` of its error |
| JobFit.SuccessCarriesValidReport | app/api/jobFit/route.ts:176-182 | every 200 answer carries a report that parses again, equal to the model's, with every score in range |
| CreateAssistant.AssistantFor | app/api/create-assistant/route.ts:21-44 | name, greeting and voice id pass through unchanged. The model has one system message (the prompt) and the single `endCall` tool, and is openai gpt-4o at temperature 0.5; the voice provider is 11labs |
| CreateAssistant.Destructure | app/api/create-assistant/route.ts:12 | destructuring fails exactly on `null`, and otherwise reads `name`, `firstMessage`, `voiceID`, `systemPrompt` |
| CreateAssistant.ServerError | app/api/create-assistant/route.ts:47-52 | 500 with "Internal Server Error"; the body has exactly the keys `error` and, for an Error, `details`, which is then the Error's `message`; a value without a message gets no `details` (modelled only for Error instances and message-less non-null values) |
| CreateAssistant.Post | app/api/create-assistant/route.ts:10-54 | Errors: an unparseable or `null` body answers 500 without a platform call. A 400 with the fixed message, and no call, comes exactly when one of the four fields is falsy. Otherwise the platform is asked for `AssistantFor(fields)`. 200 with `{assistant}` exactly when it was created; a platform failure answers `ServerError` |
| CreateAssistant.MissingVoiceRefusedUnnamed | app/api/create-assistant/route.ts:14-19 | a body without `voiceID` is refused with the message, which does not name the voice field |
| JobDetailed.StatusIcon | components/ui/Job/JobDetailed.tsx:158-162 | ✅ exactly for "pass", ⚠️ exactly for "warning", ❌ for every other string |
| JobDetailed.RenderSection | components/ui/Job/JobDetailed.tsx:164-178 | heading with the status icon, then the summary, then the evidence list exactly when it is non-empty; its only heading is its title |
| JobDetailed.CaptionedList | components/ui/Job/JobDetailed.tsx:197-204 | a skills list and its caption appear exactly when the list is non-empty |
| JobDetailed.RenderSkills | components/ui/Job/JobDetailed.tsx:191-229 | heading and summary first, then the matched, missing and preferred lists in that order, each as its caption followed by its list and present exactly when non-empty; its only heading is "Skills Alignment" |
| JobDetailed.CaptionsShown | components/ui/Job/JobDetailed.tsx:197-228 | after an uncaptioned heading and summary, each of three distinct captions is shown exactly when its list is non-empty |
| JobDetailed.SectionBlocks | components/ui/Job/JobDetailed.tsx:707-725 | relevant experience, seniority, education and skills alignment, each rendered whole, in that order, with no strengths/gaps heading |
| JobDetailed.SectionHeadingsInPageOrder | components/ui/Job/JobDetailed.tsx:707-725 | the section headings are exactly the four titles, in page order |
| JobDetailed.TitledList | components/ui/Job/JobDetailed.tsx:727-746 | nothing for an empty list; otherwise the title heading followed by the list |
| JobDetailed.VerdictBlocks | components/ui/Job/JobDetailed.tsx:749-754 | the recommendation box is the verdict line "Recommendation: <verdict>" followed by the rationale, and contains no list heading |
| JobDetailed.RenderReport | components/ui/Job/JobDetailed.tsx:707-754 | the report ends with the recommendation verdict and its rationale |
| JobDetailed.ReportHeadingsInPageOrder | components/ui/Job/JobDetailed.tsx:707-754 | the report's section headings are exactly the four sections, in page order |
| JobDetailed.ReportListsShownWhenNonEmpty | components/ui/Job/JobDetailed.tsx:727-746 | "Strengths" and "Gaps" are each shown exactly when the report has at least one |
| JobDetailed.TitledListsIn | components/ui/Job/JobDetailed.tsx:727-746 | between blocks without list headings, the strengths and gaps headings appear exactly when their lists are non-empty |
| JobDetailed.NoListHeadingAppend | components/ui/Job/JobDetailed.tsx:707-746 | joining blocks without list headings adds none |
| JobDetailed.SidePanel | components/ui/Job/JobDetailed.tsx:636-834 | The upsell shows exactly when not upgraded. Otherwise the first match wins: extracting, then analysing, then "ready to analyse" (text and no analysis), then the uploader (neither), then the analysis view. The final `null` is unreachable |
| JobDetailed.ScreenOf | components/ui/Job/JobDetailed.tsx:376-422 | the interview options replace the whole page exactly when `interview` is set; otherwise the main view shows the side panel of the state |
| JobDetailed.BrutalityToSend | components/ui/Job/JobDetailed.tsx:324 | an unselected level is sent as "2", a selected one as it is |
| JobDetailed.CreateEnabled | components/ui/Job/JobDetailed.tsx:419 | the create button is disabled exactly when the count is 0 or no text was extracted |
| JobDetailed.WithOptional | components/ui/Job/JobDetailed.tsx:322 | `JSON.stringify` omits an undefined value's key and keeps every other key as it was |
| JobDetailed.InterviewRequestBody | components/ui/Job/JobDetailed.tsx:315-326 | keys job, num_questions, brutality_level, plus resume exactly when text was extracted; job is the job data, the count is the entered number, the level is `BrutalityToSend` of the selection ("2" when none), the resume is the extracted text |
| JobDetailed.AssistantRequestBody | components/ui/Job/JobDetailed.tsx:341-352 | keys name, firstMessage, voiceID, plus systemPrompt exactly when the generated prompt was defined; name "Avery", the fixed greeting and voice id, and the prompt as received |
| JobDetailed.ReadOk | components/ui/Job/JobDetailed.tsx:328-334 | a body is read exactly when the fetch answered with an ok status and a JSON body |
| JobDetailed.InterviewChain | components/ui/Job/JobDetailed.tsx:314-374 | The first request is the interview request. The assistant request follows exactly when the first answer was accepted, and carries its `response` as the prompt. The page navigates exactly when both were accepted and the assistant has a truthy id, to `/interview/${id}` |
| JobDetailed.PickedFile | components/ui/Job/JobDetailed.tsx:255 | a list of files yields its first file (none when empty); a single file yields itself |
| JobDetailed.InitialPage | components/ui/Job/JobDetailed.tsx:239-251 | not upgraded, no file or text, no result, idle, 4 questions, no level selected, nothing sent |
| JobDetailed.ExtractionStarted | components/ui/Job/JobDetailed.tsx:262-264 | busy, the previous result cleared, the file appended to the extractions started; nothing else changes |
| JobDetailed.FileChosen | components/ui/Job/JobDetailed.tsx:254-260 | nothing happens without a file; otherwise the file is stored and extraction starts |
| JobDetailed.ExtractionFinished | components/ui/Job/JobDetailed.tsx:265-277 | the text is stored on success only, and the page is never busy afterwards |
| JobDetailed.AnalysisStarted | components/ui/Job/JobDetailed.tsx:280-298 | without text nothing happens. Otherwise the page is busy, the old analysis is cleared and one job-fit request is sent |
| JobDetailed.AnalysisFinished | components/ui/Job/JobDetailed.tsx:299-311 | the answer's `response` is stored only when the answer was ok with a non-null body; the page is never busy afterwards |
| JobDetailed.InterviewCreated | components/ui/Job/JobDetailed.tsx:314-374 | the interview request is appended, the assistant request after it exactly when the first answer was accepted, and `/interview/<id>` is appended exactly when both answers were accepted with an id; earlier requests and route changes and every other field are kept |
| JobDetailed.ExtractionPanels | components/ui/Job/JobDetailed.tsx:262-277 | on the main view the panel shows "extracting", then "ready to analyse" on success or the uploader again on failure |
| JobDetailed.InterviewOptionsStay | components/ui/Job/JobDetailed.tsx:376-377 | once "Start Interview" was pressed, no later transition, including a settling extraction or analysis, brings the main view back |
| JobDetailed.AnalysisRoundSendsOneRequest | components/ui/Job/JobDetailed.tsx:280-311 | an analysis with text sends exactly one job-fit request, keeps the text and ends idle |
| JobDetailed.SuccessfulAnalysisShowsReport | components/ui/Job/JobDetailed.tsx:289-306 | on the main view, a 200 from the job-fit route leaves the analysis panel showing a report that passes the schema |
| JobDetailed.ReportAnswerShowsReport | components/ui/Job/JobDetailed.tsx:289-306 | on the main view, an ok answer whose `response` passes the schema leaves the upgraded page on the analysis panel, holding that report |
| JobDetailed.EmptyResumeNeverNavigates | components/ui/Job/JobDetailed.tsx:328-331 | an empty extracted resume is refused with 400, so the page throws "API error 400" after one request and never asks for an assistant |
| JobDetailed.OkAnswersCarryNoError | components/ui/Job/JobDetailed.tsx:335-363 | no ok answer from either route has a truthy `error`, so the page's error-body branches are unreachable |
| JobDetailed.InterviewOkAnswerHasNoError | app/api/create-interview/route.ts:142 | an ok answer from the create-interview route is exactly `{response: text}` |
| JobDetailed.AssistantOkAnswerHasNoError | app/api/create-assistant/route.ts:46 | an ok answer from the create-assistant route is exactly `{assistant}` |
| JobDetailed.HappyPathNavigates | components/ui/Job/JobDetailed.tsx:314-374 | with a job, resume text, a generated prompt and an assistant with an id, the page ends on `/interview/<id>` |
| JobDetailed.InterviewRouteAnswersPrompt | app/api/create-interview/route.ts:8-142 | the page's interview request with a job and resume text is answered 200 with `{response: prompt}` when the model produced the prompt |
| JobDetailed.AssistantRouteAnswersAssistant | app/api/create-assistant/route.ts:10-46 | the page's assistant request with a generated prompt passes the guard and is answered 200 with `{assistant}` |
| JobDetailed.AcceptedAnswersNavigate | components/ui/Job/JobDetailed.tsx:328-371 | an answer carrying a prompt followed by one carrying an assistant with a non-empty id ends on `/interview/<id>` |
| JobDetailed.JobDetailPage.constructor | components/ui/Job/JobDetailed.tsx:239-251 | the page starts in `InitialPage` |
| JobDetailed.JobDetailPage.Upgrade | components/ui/Job/JobDetailed.tsx:832 | only `upgraded` becomes true |
| JobDetailed.JobDetailPage.OpenInterviewOptions | components/ui/Job/JobDetailed.tsx:535 | only `interview` becomes true |
| JobDetailed.JobDetailPage.SetNumberOfQuestions | components/ui/Job/JobDetailed.tsx:387 | only the count changes, to the entered number |
| JobDetailed.JobDetailPage.SetBrutalityLevel | components/ui/Job/JobDetailed.tsx:399 | only the level changes, to the selected one |
| JobDetailed.JobDetailPage.HandleChange | components/ui/Job/JobDetailed.tsx:254-260 | the state becomes `FileChosen` |
| JobDetailed.JobDetailPage.StartExtraction | components/ui/Job/JobDetailed.tsx:262-264 | the state becomes `ExtractionStarted` |
| JobDetailed.JobDetailPage.FinishExtraction | components/ui/Job/JobDetailed.tsx:265-277 | the state becomes `ExtractionFinished` |
| JobDetailed.JobDetailPage.AnalyzeProfile | components/ui/Job/JobDetailed.tsx:280-298 | a request is sent exactly when there is text, and the state becomes `AnalysisStarted` |
| JobDetailed.JobDetailPage.FinishAnalysis | components/ui/Job/JobDetailed.tsx:299-311 | the state becomes `AnalysisFinished` |
| JobDetailed.JobDetailPage.CreateInterviewPressed | components/ui/Job/JobDetailed.tsx:314-374 | only while the button is enabled; the state becomes `InterviewCreated` |
| JobDetailed.JobDetailPage.Shown | components/ui/Job/JobDetailed.tsx:376-834 | the page shows the interview options exactly when `interview` is set |

## Left out

Inputs and parameters:
- The network, the AI SDKs, the voice platform and the PDF extractor are not modelled as code. Their outcomes (a fetch answer or failure, a generated text or object, a created assistant, extracted text) are inputs to the functions and methods.
- `JSON.stringify` is the parameter `serialize`, because its key order and escaping do not affect any property proved here.
- The model's text generation itself is not modelled. Only the prompt sent to it and what the route does with the reply are.

Not modelled:
- JSON numbers are integers only. Fractions, NaN and floating point are not modelled, so `Number()` of a non-numeric input is not either.
- The model temperature 0.5 is kept as the integer 5 tenths.
- The render-time floating point of the score circles, `getCurrentTime`, styling and layout are not modelled. Rendering is modelled as a list of blocks over a typed, schema-valid report.
- Console logging, `toast` notifications and `res.text()` on the error path are not modelled; nothing the user sees depends on them.
- React's scheduling and concurrency are not modelled: batched updates, effect timing, a state update landing after unmount, and the lag of `transcriptRef` behind `transcript` by one render. Handlers run one at a time on the latest state.
- Re-running the mount effect when `apiKey` changes is not modelled; the widget mounts once.
- Inherited object properties are not modelled: a property read sees only an object's own fields.

Exact wording:
- The wording of errors thrown by the libraries is not modelled. The SDK's schema-mismatch message and the destructuring TypeError are each represented by one fixed string. Model output that is not JSON at all is folded into `CallFailed`.
- JobDetailed.RenderReport: states the position of the verdict. Which lists appear and the order of the section headings are stated separately by `JobDetailed.ReportListsShownWhenNonEmpty` and `JobDetailed.ReportHeadingsInPageOrder`, and the page's rendering of a report that fails the schema is not modelled.
- The content of the interview-options screen (its inputs are modelled by the setters and `JobDetailed.CreateEnabled`) is not modelled as blocks; `JobDetailed.ScreenOf` only says when it replaces the main view.
- CreateAssistant.ServerError: the catch block reads `error.message` with no `instanceof` test, but a thrown value is modelled only as an Error or a value without a message. Two cases are therefore not covered: a thrown non-Error object that has a `message` field, which also gets `details`, and a thrown `null` or `undefined`, on which the catch block itself throws, so the JSON 500 is never sent.
- React re-rendering is not modelled: `VapiWidget.Widget.PressMicButton` takes the mute state read at the last render as an input, so two presses with no re-render between them send the same command.

Files outside this model:
- The header tab provider (components/HeaderTabsProvider.tsx) is not part of this model. It holds the counters `Home.HomePage.SyncCounts` writes, and they are fields of `HomePage` here.
- components/HeaderTabs.tsx, components/SideNav.tsx, the interview pages and next.config.ts are not part of this model.

## Findings

| source | as written | input that shows it | evidently intended | confidence | as-written member | corrected member |
|---|---|---|---|---|---|---|
| components/ui/Job/JobCard.tsx:57,107-108 | the heart button's `onClick` does not stop the click, which bubbles up to the card's `onClick` | a click on the heart of job 2 toggles its like and then navigates to `/jobs/2` | the heart only toggles the like; the card navigates only for clicks elsewhere | not executed | JobCard.ClickActions, JobCard.HeartClickAlsoNavigates | JobCard.IntendedClickActions |

=== FILE: create_assistant.dfy ===
/**
 * The create-assistant route: it checks the four posted fields and asks the
 * voice platform for an assistant with a fixed model and voice configuration
 * around the posted name, greeting, voice and system prompt.
 */
module CreateAssistant {
  import opened Js

  /** The model temperature, 0.5, kept as tenths to stay within integers. */
  const TemperatureTenths: int := 5

  /** The assistant configuration the route sends to the voice platform. */
  datatype ChatMessage = ChatMessage(role: string, content: Json)
  datatype Tool = Tool(toolType: string)
  datatype ModelConfig = ModelConfig(
    provider: string, model: string, temperatureTenths: int, messages: seq<ChatMessage>, tools: seq<Tool>)
  datatype VoiceConfig = VoiceConfig(provider: string, voiceId: Json)
  datatype AssistantConfig = AssistantConfig(name: Json, firstMessage: Json, model: ModelConfig, voice: VoiceConfig)

  /**
   * The configuration for the posted values, passed through exactly as they
   * arrived: one system message carrying the prompt, the end-call tool, an
   * OpenAI gpt-4o model and an ElevenLabs voice.
   */
  function AssistantFor(name: Json, firstMessage: Json, voiceId: Json, systemPrompt: Json): (c: AssistantConfig)
    ensures c.name == name && c.firstMessage == firstMessage && c.voice.voiceId == voiceId
    ensures c.model.messages == [ChatMessage("system", systemPrompt)]
    ensures c.model.tools == [Tool("endCall")]
    ensures c.model.provider == "openai" && c.model.model == "gpt-4o" && c.model.temperatureTenths == TemperatureTenths
    ensures c.voice.provider == "11labs"
  {
    AssistantConfig(name, firstMessage,
      ModelConfig("openai", "gpt-4o", TemperatureTenths, [ChatMessage("system", systemPrompt)], [Tool("endCall")]),
      VoiceConfig("11labs", voiceId))
  }

  const MissingFieldsMessage: string := "Missing required fields: name, firstMessage, systemPrompt"

  /** What the platform call gave back: the created assistant, or what it threw. */
  datatype CreateReply = Created(assistant: Json) | CreateFailed(error: Thrown)

  /** The four posted fields, each possibly undefined. */
  datatype Fields = Fields(name: JsValue, firstMessage: JsValue, voiceId: JsValue, systemPrompt: JsValue)

  /** Destructuring the body: a TypeError on `null`, the four members otherwise. */
  function Destructure(body: Json): (r: Result<Fields, string>)
    ensures r.Failure? <==> body == JNull
    ensures r.Success? ==> r.value == Fields(Member(Some(body), "name"), Member(Some(body), "firstMessage"),
      Member(Some(body), "voiceID"), Member(Some(body), "systemPrompt"))
  {
    if body == JNull then Failure("Cannot destructure 'null' as it is null.")
    else Success(Fields(Member(Some(body), "name"), Member(Some(body), "firstMessage"),
      Member(Some(body), "voiceID"), Member(Some(body), "systemPrompt")))
  }

  predicate AllPresent(f: Fields) {
    Truthy(f.name) && Truthy(f.firstMessage) && Truthy(f.systemPrompt) && Truthy(f.voiceId)
  }

  /**
   * The catch block: status 500, a fixed error and the thrown value's
   * `message` as `details`, which JSON omits when the value has none.
   */
  function ServerError(e: Thrown): (r: Response)
    ensures r.status == 500 && r.body.JObj? && "error" in r.body.fields
    ensures r.body.fields["error"] == JStr("Internal Server Error")
    ensures "details" in r.body.fields <==> e.ErrorInstance?
    ensures r.body.fields.Keys == if e.ErrorInstance? then {"error", "details"} else {"error"}
    ensures e.ErrorInstance? ==> r.body.fields["details"] == JStr(e.message)
  {
    match e
    case ErrorInstance(m) => Response(500, JObj(map["error" := JStr("Internal Server Error"), "details" := JStr(m)]))
    case NonErrorValue => Response(500, JObj(map["error" := JStr("Internal Server Error")]))
  }

  /** What the route did: its response and the configuration it asked the platform for, if any. */
  datatype Outcome = Outcome(response: Response, request: Option<AssistantConfig>)

  /**
   * The POST handler. `body` is the request body as `req.json()` parsed it
   * and `reply` is what the platform call produced if it was made.
   */
  function Post(body: Result<Json, string>, reply: CreateReply): (r: Outcome)
    ensures body.Failure? ==> r == Outcome(ServerError(ErrorInstance(body.error)), None)
    ensures body == Success(JNull) ==> r.request.None? && r.response.status == 500
    ensures body.Success? && body.value != JNull ==>
      var f := Destructure(body.value).value;
      (r.response.status == 400 <==> !AllPresent(f)) &&
      (r.response.status == 400 ==>
        r == Outcome(Response(400, JObj(map["error" := JStr(MissingFieldsMessage)])), None)) &&
      (AllPresent(f) ==>
        r.request == Some(AssistantFor(f.name.value, f.firstMessage.value, f.voiceId.value, f.systemPrompt.value)))
    ensures r.response.status == 200 <==> r.request.Some? && reply.Created?
    ensures r.response.status == 200 ==> r.response.body == JObj(map["assistant" := reply.assistant])
    ensures r.request.Some? && reply.CreateFailed? ==> r.response == ServerError(reply.error)
  {
    match body
    case Failure(parseError) => Outcome(ServerError(ErrorInstance(parseError)), None)
    case Success(b) =>
      match Destructure(b)
      case Failure(typeError) => Outcome(ServerError(ErrorInstance(typeError)), None)
      case Success(f) =>
        if !AllPresent(f) then
          Outcome(Response(400, JObj(map["error" := JStr(MissingFieldsMessage)])), None)
        else
          var config := AssistantFor(f.name.value, f.firstMessage.value, f.voiceId.value, f.systemPrompt.value);
          match reply
          case Created(assistant) => Outcome(Response(200, JObj(map["assistant" := assistant])), Some(config))
          case CreateFailed(e) => Outcome(ServerError(e), Some(config))
  }

  /**
   * A missing voice id is refused like the other three fields, although the
   * error message names only name, firstMessage and systemPrompt.
   */
  lemma MissingVoiceRefusedUnnamed(name: string, greeting: string, prompt: string, reply: CreateReply)
    requires name != "" && greeting != "" && prompt != ""
    ensures
      var body := JObj(map["name" := JStr(name), "firstMessage" := JStr(greeting), "systemPrompt" := JStr(prompt)]);
      var r := Post(Success(body), reply);
      r.response.status == 400 && r.request.None? &&
      r.response.body == JObj(map["error" := JStr(MissingFieldsMessage)])
  {
    var body := JObj(map["name" := JStr(name), "firstMessage" := JStr(greeting), "systemPrompt" := JStr(prompt)]);
    assert Member(Some(body), "voiceID") == None;
  }
}

=== FILE: create_interview.dfy ===
/**
 * The create-interview route: it checks that a job and a resume were posted,
 * interpolates the request into the interviewer instructions and answers with
 * the text the language model generated from them.
 */
module CreateInterview {
  import opened Js

  // ---------------------------------------------------------------------------
  // The fixed parts of the interviewer prompt, in the order they appear

  const IntroHead: string :=
    "\n" +
    "You are an AI interviewer conducting a realistic job interview.\n" +
    "\n" +
    "Inputs you will receive\n" +
    "\t•\t"

  const JobLabel: string :=
    "Job Description: "

  const Bullet: string :=
    "\n" +
    "\t•\t"

  const ResumeLabel: string :=
    "Candidate Resume: "

  const CountLabel: string :=
    "Number of Questions: "

  const LevelLabel: string :=
    "Brutality Level (1–5): "

  const ObjectiveHead: string :=
    "\n" +
    "\n" +
    "⸻\n" +
    "\n" +
    "Your Objective\n" +
    "\n" +
    "Conduct a professional interview tailored to the provided job description and candidate resume.\n"

  const ExactlyLabel: string :=
    "Generate and ask exactly "

  const QuestionsTail: string :=
    " questions that evaluate:"

  const CriteriaAndStructure: string :=
    "\n" +
    "\t•\tRole-relevant technical competence\n" +
    "\t•\tProblem-solving ability\n" +
    "\t•\tCommunication clarity\n" +
    "\t•\tDepth of experience\n" +
    "\t•\tDecision-making under constraints\n" +
    "\n" +
    "The interview should feel realistic, adaptive, and human.\n" +
    "\n" +
    "⸻\n" +
    "\n" +
    "Interview Structure\n" +
    "\t1.\tBegin with a brief introduction (1–2 sentences).\n" +
    "\t2.\tAsk questions one at a time.\n" +
    "\t3.\tReact briefly to each answer before moving on.\n" +
    "\t4.\tEscalate or adjust difficulty if appropriate.\n" +
    "\t5.\tEnd with a short closing statement.\n" +
    "\n" +
    "Do not list all questions at once.\n" +
    "\n" +
    "⸻\n" +
    "\n" +
    "Question Design Rules\n" +
    "\t•\tBase all questions on:\n" +
    "\t•\tThe job description\n" +
    "\t•\tThe candidate’s resume\n" +
    "\t•\tPrefer open-ended questions.\n" +
    "\t•\tAvoid trivia unless the role explicitly requires it.\n" +
    "\t•\tMix:\n" +
    "\t•\tConceptual questions\n" +
    "\t•\tPractical / scenario-based questions\n" +
    "\t•\tResume-deep-dive questions\n" +
    "\t•\tIf a candidate mentions something unclear or impressive, you may ask one follow-up.\n" +
    "\n" +
    "⸻\n" +
    "\n" +
    "Brutality Level Behavior\n" +
    "\n"

  const Level1Profile: string :=
    "Level 1 – Friendly / Encouraging\n" +
    "\t•\tWarm, supportive tone\n" +
    "\t•\tHelp the candidate if they struggle\n" +
    "\t•\tLight probing, no pressure\n" +
    "\t•\tAcknowledge answers positively\n"

  const Level2Profile: string :=
    "Level 2 – Standard Professional\n" +
    "\t•\tNeutral, polite tone\n" +
    "\t•\tAsk reasonable follow-ups\n" +
    "\t•\tNo hand-holding\n" +
    "\t•\tMild challenge if answers are vague\n"

  const Level3Profile: string :=
    "Level 3 – Challenging\n" +
    "\t•\tDirect and analytical\n" +
    "\t•\tExpect structured answers\n" +
    "\t•\tPush on weak points\n" +
    "\t•\tCall out inconsistencies calmly\n"

  const Level4Profile: string :=
    "Level 4 – Intense\n" +
    "\t•\tMinimal encouragement\n" +
    "\t•\tInterrupt rambling answers\n" +
    "\t•\tPress for precision and depth\n" +
    "\t•\tQuestion assumptions aggressively but professionally\n"

  const Level5Profile: string :=
    "Level 5 – Brutal\n" +
    "\t•\tCold, skeptical, high-pressure\n" +
    "\t•\tAssume answers may be flawed\n" +
    "\t•\tRapid follow-ups\n" +
    "\t•\tExplicitly point out gaps, weaknesses, or contradictions\n" +
    "\t•\tNo emotional cushioning\n"

  const Closing: string :=
    "\n" +
    "Never be rude, insulting, or abusive. Brutality is about intellectual pressure, not disrespect.\n" +
    "\n" +
    "⸻\n" +
    "\n" +
    "Interviewer Persona Rules\n" +
    "\t•\tAct like a real human interviewer.\n" +
    "\t•\tDo not explain that you are an AI.\n" +
    "\t•\tDo not over-verbose.\n" +
    "\t•\tDo not praise excessively.\n" +
    "\t•\tMaintain control of the conversation.\n" +
    "\t•\tKeep answers focused on job relevance.\n" +
    "\n" +
    "⸻\n" +
    "\n" +
    "Failure Handling\n" +
    "\t•\tIf the candidate gives a weak or incorrect answer:\n" +
    "\t•\tProbe deeper\n" +
    "\t•\tAsk for clarification\n" +
    "\t•\tIncrease pressure according to brutality level\n" +
    "\t•\tIf the candidate refuses to answer:\n" +
    "\t•\tAcknowledge briefly and move on\n" +
    "\n" +
    "⸻\n" +
    "\n" +
    "Closing\n" +
    "\n" +
    "After the final question:\n" +
    "\t•\tThank the candidate\n" +
    "\t•\tEnd neutrally (no hiring decisions or feedback)\n" +
    "    "

  const MissingFieldsMessage: string := "Missing required fields: job and resume are required"

  /**
   * The interviewer instructions with their four holes: the fixed text before
   * and between the holes, the five level profiles (joined by line breaks)
   * and the closing text.
   */
  datatype Instructions = Instructions(
    introHead: string, jobLabel: string, bullet: string, resumeLabel: string,
    countLabel: string, levelLabel: string, objectiveHead: string,
    exactlyLabel: string, questionsTail: string, criteria: string,
    profiles: seq<string>, closing: string)

  /** The instructions the route sends. */
  function Interviewer(): (t: Instructions)
    ensures |t.profiles| == 5
  {
    Instructions(IntroHead, JobLabel, Bullet, ResumeLabel, CountLabel, LevelLabel, ObjectiveHead,
      ExactlyLabel, QuestionsTail, CriteriaAndStructure,
      [Level1Profile, Level2Profile, Level3Profile, Level4Profile, Level5Profile], Closing)
  }

  /**
   * The instructions with their holes filled, piece by piece: the serialised
   * job, the resume, the question count (twice) and the brutality level.
   */
  function Pieces(t: Instructions, jobText: string, resume: string, count: string, level: string): (ps: seq<string>)
    requires |t.profiles| == 5
    ensures |ps| == 27
  {
    [t.introHead, t.jobLabel, jobText, t.bullet, t.resumeLabel, resume,
     t.bullet, t.countLabel, count, t.bullet, t.levelLabel, level,
     t.objectiveHead, t.exactlyLabel, count, t.questionsTail, t.criteria,
     t.profiles[0], "\n", t.profiles[1], "\n", t.profiles[2], "\n",
     t.profiles[3], "\n", t.profiles[4]] + [t.closing]
  }

  function Fill(t: Instructions, jobText: string, resume: string, count: string, level: string): string
    requires |t.profiles| == 5
  {
    Concat(Pieces(t, jobText, resume, count, level))
  }

  /**
   * Each input sits verbatim between its own label and the next one, the count
   * also fills the "exactly N questions" sentence, and every profile is present.
   */
  lemma FillCarriesInputs(t: Instructions, jobText: string, resume: string, count: string, level: string)
    requires |t.profiles| == 5
    ensures Contains(Fill(t, jobText, resume, count, level), t.jobLabel + jobText + t.bullet + t.resumeLabel)
    ensures Contains(Fill(t, jobText, resume, count, level), t.resumeLabel + resume + t.bullet + t.countLabel)
    ensures Contains(Fill(t, jobText, resume, count, level), t.countLabel + count + t.bullet + t.levelLabel)
    ensures Contains(Fill(t, jobText, resume, count, level), t.levelLabel + level + t.objectiveHead)
    ensures Contains(Fill(t, jobText, resume, count, level), t.exactlyLabel + count + t.questionsTail)
    ensures forall k :: 0 <= k < 5 ==> Contains(Fill(t, jobText, resume, count, level), t.profiles[k])
  {
    var ps := Pieces(t, jobText, resume, count, level);
    Run4(ps, 1);
    Run4(ps, 4);
    Run4(ps, 7);
    Run3(ps, 10);
    Run3(ps, 13);
    forall k | 0 <= k < 5
      ensures Contains(Concat(ps), t.profiles[k])
    {
      PiecesOccur(ps, 17 + 2 * k, 18 + 2 * k);
      assert ps[17 + 2 * k..18 + 2 * k] == [t.profiles[k]];
      ConcatSingle(t.profiles[k]);
    }
  }

  lemma Run4(ps: seq<string>, i: nat)
    requires i + 4 <= |ps|
    ensures Contains(Concat(ps), ps[i] + ps[i + 1] + ps[i + 2] + ps[i + 3])
  {
    var run := ps[i..i + 4];
    ConcatOfFour(run);
    assert run[0] == ps[i] && run[1] == ps[i + 1] && run[2] == ps[i + 2] && run[3] == ps[i + 3];
    RunOccurs(ps, i, i + 4, ps[i] + ps[i + 1] + ps[i + 2] + ps[i + 3]);
  }

  lemma Run3(ps: seq<string>, i: nat)
    requires i + 3 <= |ps|
    ensures Contains(Concat(ps), ps[i] + ps[i + 1] + ps[i + 2])
  {
    var run := ps[i..i + 3];
    ConcatOfThree(run);
    assert run[0] == ps[i] && run[1] == ps[i + 1] && run[2] == ps[i + 2];
    RunOccurs(ps, i, i + 3, ps[i] + ps[i + 1] + ps[i + 2]);
  }

  /** The prompt the route sends to the model. */
  function InterviewPrompt(jobText: string, resume: string, count: string, level: string): string {
    Fill(Interviewer(), jobText, resume, count, level)
  }

  /** The route's own prompt carries every input and all five level profiles, whatever the level. */
  lemma InterviewPromptCarriesInputs(jobText: string, resume: string, count: string, level: string)
    ensures Contains(InterviewPrompt(jobText, resume, count, level), JobLabel + jobText + Bullet + ResumeLabel)
    ensures Contains(InterviewPrompt(jobText, resume, count, level), ResumeLabel + resume + Bullet + CountLabel)
    ensures Contains(InterviewPrompt(jobText, resume, count, level), CountLabel + count + Bullet + LevelLabel)
    ensures Contains(InterviewPrompt(jobText, resume, count, level), LevelLabel + level + ObjectiveHead)
    ensures Contains(InterviewPrompt(jobText, resume, count, level), ExactlyLabel + count + QuestionsTail)
    ensures Contains(InterviewPrompt(jobText, resume, count, level), Level1Profile)
    ensures Contains(InterviewPrompt(jobText, resume, count, level), Level2Profile)
    ensures Contains(InterviewPrompt(jobText, resume, count, level), Level3Profile)
    ensures Contains(InterviewPrompt(jobText, resume, count, level), Level4Profile)
    ensures Contains(InterviewPrompt(jobText, resume, count, level), Level5Profile)
  {
    var t := Interviewer();
    FillCarriesInputs(t, jobText, resume, count, level);
    assert t.profiles[0] == Level1Profile && t.profiles[1] == Level2Profile;
    assert t.profiles[2] == Level3Profile && t.profiles[3] == Level4Profile;
    assert t.profiles[4] == Level5Profile;
  }

  /** What the model call gave back: the generated text, or what it threw. */
  datatype TextReply = Generated(text: string) | GenerationFailed(error: Thrown)

  /**
   * The POST handler. `body` is the request body as `req.json()` parsed it (a
   * failure carries the parser's error message), `serialize` is
   * `JSON.stringify`, and `reply` is what the model call produced if it was
   * made.
   */
  function Post(body: Result<Json, string>, serialize: Json -> string, reply: TextReply): (r: RouteResult)
    ensures body.Failure? ==> r == RouteResult(FailedToCheck(ErrorInstance(body.error)), None)
    ensures body == Success(JNull) ==>
      r == RouteResult(FailedToCheck(ErrorInstance(NullAccessMessage("job"))), None)
    ensures body.Success? && body.value != JNull ==>
      var job := Member(Some(body.value), "job");
      var resume := Member(Some(body.value), "resume");
      (r.response.status == 400 <==> !Truthy(job) || !Truthy(resume)) &&
      (r.response.status == 400 ==>
        r == RouteResult(Response(400, JObj(map["error" := JStr(MissingFieldsMessage)])), None)) &&
      (Truthy(job) && Truthy(resume) ==>
        r.generationPrompt == Some(InterviewPrompt(serialize(job.value), TemplateString(resume),
          TemplateString(Member(Some(body.value), "num_questions")),
          TemplateString(Member(Some(body.value), "brutality_level")))))
    ensures r.response.status == 200 <==> r.generationPrompt.Some? && reply.Generated?
    ensures r.response.status == 200 ==> r.response.body == JObj(map["response" := JStr(reply.text)])
    ensures r.generationPrompt.Some? && reply.GenerationFailed? ==> r.response == FailedToCheck(reply.error)
  {
    match body
    case Failure(parseError) => RouteResult(FailedToCheck(ErrorInstance(parseError)), None)
    case Success(b) =>
      match Get(b, "job")
      case Failure(typeError) => RouteResult(FailedToCheck(ErrorInstance(typeError)), None)
      case Success(job) =>
        var resume := Member(Some(b), "resume");
        var numQuestions := Member(Some(b), "num_questions");
        var brutalityLevel := Member(Some(b), "brutality_level");
        if !Truthy(job) || !Truthy(resume) then
          RouteResult(Response(400, JObj(map["error" := JStr(MissingFieldsMessage)])), None)
        else
          var prompt := InterviewPrompt(serialize(job.value), TemplateString(resume),
            TemplateString(numQuestions), TemplateString(brutalityLevel));
          match reply
          case Generated(text) => RouteResult(Response(200, JObj(map["response" := JStr(text)])), Some(prompt))
          case GenerationFailed(e) => RouteResult(FailedToCheck(e), Some(prompt))
  }

  /**
   * Neither the question count nor the level is checked: a negative count and
   * a missing level reach the model as "-3" and "undefined".
   */
  lemma CountAndLevelUnchecked(serialize: Json -> string, reply: TextReply)
    ensures
      var body := JObj(map["job" := JStr("Engineer"), "resume" := JStr("CV"), "num_questions" := JNum(-3)]);
      var r := Post(Success(body), serialize, reply);
      r.response.status != 400 &&
      r.generationPrompt.Some? &&
      Contains(r.generationPrompt.value, ExactlyLabel + "-3" + QuestionsTail) &&
      Contains(r.generationPrompt.value, LevelLabel + "undefined" + ObjectiveHead)
  {
    var body := JObj(map["job" := JStr("Engineer"), "resume" := JStr("CV"), "num_questions" := JNum(-3)]);
    var r := Post(Success(body), serialize, reply);
    assert Member(Some(body), "job") == Some(JStr("Engineer"));
    assert Member(Some(body), "resume") == Some(JStr("CV"));
    assert Member(Some(body), "brutality_level") == None;
    assert Member(Some(body), "num_questions") == Some(JNum(-3));
    assert IntToString(-3) == "-3";
    assert r.generationPrompt == Some(InterviewPrompt(serialize(JStr("Engineer")), "CV", "-3", "undefined"));
    FillCarriesInputs(Interviewer(), serialize(JStr("Engineer")), "CV", "-3", "undefined");
  }
}

=== FILE: job_detailed.dfy ===
/**
 * The job-detail page: how it renders a job-fit report, which side panel it
 * shows, and the controller behind it: picking a resume file, extracting its
 * text, asking for a fit analysis and creating a voice interview, which
 * chains two route calls and ends on the interview page.
 */
module JobDetailed {
  import opened Js
  import JobFit
  import CreateInterview
  import CreateAssistant

  // ---------------------------------------------------------------------------
  // Rendering the report

  /** The icon next to a section title: the status is any string the report carried. */
  function StatusIcon(status: string): (icon: string)
    ensures icon == "✅" <==> status == "pass"
    ensures icon == "⚠️" <==> status == "warning"
    ensures icon == "❌" <==> status != "pass" && status != "warning"
  {
    if status == "pass" then "✅"
    else if status == "warning" then "⚠️"
    else "❌"
  }

  /** What the analysis view shows, top to bottom, without layout. */
  datatype Block =
    | Heading(title: string, icon: string)
    | Paragraph(text: string)
    | Caption(text: string)
    | Bullets(items: seq<string>)
    | ListHeading(title: string)
    | VerdictLine(verdict: string)

  /** No block is a section heading. */
  predicate NoHeading(blocks: seq<Block>) {
    forall i :: 0 <= i < |blocks| ==> !blocks[i].Heading?
  }

  /** The titles of the section headings, top to bottom. */
  function HeadingTitles(blocks: seq<Block>): seq<string> {
    if blocks == [] then []
    else (if blocks[0].Heading? then [blocks[0].title] else []) + HeadingTitles(blocks[1..])
  }

  lemma {:induction false} HeadingTitlesAppend(a: seq<Block>, b: seq<Block>)
    ensures HeadingTitles(a + b) == HeadingTitles(a) + HeadingTitles(b)
  {
    if a == [] {
      assert a + b == b;
    } else {
      var first := if a[0].Heading? then [a[0].title] else [];
      assert (a + b)[0] == a[0];
      assert (a + b)[1..] == a[1..] + b;
      calc {
        HeadingTitles(a + b);
        first + HeadingTitles(a[1..] + b);
        { HeadingTitlesAppend(a[1..], b); }
        first + (HeadingTitles(a[1..]) + HeadingTitles(b));
      }
    }
  }

  lemma {:induction false} NoHeadingTitles(blocks: seq<Block>)
    requires NoHeading(blocks)
    ensures HeadingTitles(blocks) == []
  {
    if blocks != [] {
      assert forall i :: 0 <= i < |blocks[1..]| ==> blocks[1..][i] == blocks[i + 1];
      NoHeadingTitles(blocks[1..]);
    }
  }

  /** A heading followed by blocks that are not headings contributes its title alone. */
  lemma HeadedBy(heading: Block, rest: seq<Block>)
    requires heading.Heading? && NoHeading(rest)
    ensures HeadingTitles([heading] + rest) == [heading.title]
  {
    assert ([heading] + rest)[1..] == rest;
    NoHeadingTitles(rest);
  }

  lemma NoHeadingAppend(a: seq<Block>, b: seq<Block>)
    requires NoHeading(a) && NoHeading(b)
    ensures NoHeading(a + b)
  {
    assert forall i :: 0 <= i < |a + b| ==> (a + b)[i] == if i < |a| then a[i] else b[i - |a|];
  }

  /** No block is a strengths/gaps heading. */
  predicate NoListHeading(blocks: seq<Block>) {
    forall i :: 0 <= i < |blocks| ==> !blocks[i].ListHeading?
  }

  /** A titled section: heading with icon, summary, and the evidence list only when it is non-empty. */
  function RenderSection(title: string, s: JobFit.Section): (blocks: seq<Block>)
    ensures |blocks| >= 2
    ensures blocks[0] == Heading(title, StatusIcon(JobFit.StatusName(s.status)))
    ensures blocks[1] == Paragraph(s.summary)
    ensures Bullets(s.evidence) in blocks <==> |s.evidence| > 0
    ensures |blocks| == 2 || blocks[2..] == [Bullets(s.evidence)]
    ensures NoListHeading(blocks)
    ensures HeadingTitles(blocks) == [title]
  {
    var rest := [Paragraph(s.summary)] + (if |s.evidence| > 0 then [Bullets(s.evidence)] else []);
    HeadedBy(Heading(title, StatusIcon(JobFit.StatusName(s.status))), rest);
    [Heading(title, StatusIcon(JobFit.StatusName(s.status)))] + rest
  }

  /** A captioned list, present only when the list is non-empty. */
  function CaptionedList(caption: string, items: seq<string>): (blocks: seq<Block>)
    ensures blocks == [] <==> |items| == 0
    ensures blocks != [] ==> blocks == [Caption(caption), Bullets(items)]
    ensures NoHeading(blocks)
  {
    if |items| > 0 then [Caption(caption), Bullets(items)] else []
  }

  /** The skills section: each of its three lists appears, captioned, only when non-empty. */
  function RenderSkills(s: JobFit.SkillsAlignment): (blocks: seq<Block>)
    ensures |blocks| >= 2
    ensures blocks[0] == Heading("Skills Alignment", StatusIcon(JobFit.StatusName(s.status)))
    ensures blocks[1] == Paragraph(s.summary)
    ensures Caption("Matched Skills:") in blocks <==> |s.matchedSkills| > 0
    ensures Caption("Missing Required Skills:") in blocks <==> |s.missingRequiredSkills| > 0
    ensures Caption("Preferred Skills Matched:") in blocks <==> |s.preferredSkillsMatched| > 0
    ensures blocks[2..] == CaptionedList("Matched Skills:", s.matchedSkills) +
      CaptionedList("Missing Required Skills:", s.missingRequiredSkills) +
      CaptionedList("Preferred Skills Matched:", s.preferredSkillsMatched)
    ensures NoListHeading(blocks)
    ensures HeadingTitles(blocks) == ["Skills Alignment"]
  {
    var heading := Heading("Skills Alignment", StatusIcon(JobFit.StatusName(s.status)));
    var lists := CaptionedList("Matched Skills:", s.matchedSkills) +
      CaptionedList("Missing Required Skills:", s.missingRequiredSkills) +
      CaptionedList("Preferred Skills Matched:", s.preferredSkillsMatched);
    CaptionsShown([heading, Paragraph(s.summary)], "Matched Skills:", s.matchedSkills,
      "Missing Required Skills:", s.missingRequiredSkills, "Preferred Skills Matched:", s.preferredSkillsMatched);
    CaptionedListsPlain("Matched Skills:", s.matchedSkills,
      "Missing Required Skills:", s.missingRequiredSkills, "Preferred Skills Matched:", s.preferredSkillsMatched);
    HeadingThenPlain(heading, Paragraph(s.summary), lists);
    [heading, Paragraph(s.summary)] + lists
  }

  /** Captioned lists hold no heading of either kind. */
  lemma CaptionedListsPlain(a: string, xs: seq<string>, b: string, ys: seq<string>, c: string, zs: seq<string>)
    ensures var lists := CaptionedList(a, xs) + CaptionedList(b, ys) + CaptionedList(c, zs);
      NoHeading(lists) && NoListHeading(lists)
  {
    var l1, l2, l3 := CaptionedList(a, xs), CaptionedList(b, ys), CaptionedList(c, zs);
    NoHeadingAppend(l1, l2);
    NoHeadingAppend(l1 + l2, l3);
    NoListHeadingAppend(l1, l2);
    NoListHeadingAppend(l1 + l2, l3);
  }

  /** A heading and its summary followed by blocks without headings: the heading is the only one. */
  lemma HeadingThenPlain(heading: Block, summary: Block, rest: seq<Block>)
    requires heading.Heading? && summary.Paragraph? && NoHeading(rest) && NoListHeading(rest)
    ensures var all := [heading, summary] + rest;
      |all| >= 2 && all[0] == heading && all[1] == summary && all[2..] == rest &&
      NoListHeading(all) && HeadingTitles(all) == [heading.title]
  {
    var all := [heading, summary] + rest;
    assert all == [heading] + ([summary] + rest);
    assert NoHeading([summary] + rest) by {
      NoHeadingAppend([summary], rest);
    }
    HeadedBy(heading, [summary] + rest);
    NoListHeadingAppend([heading, summary], rest);
  }

  /** With three distinct captions after two uncaptioned blocks, each caption is shown exactly when its list is non-empty. */
  lemma CaptionsShown(head: seq<Block>, a: string, xs: seq<string>, b: string, ys: seq<string>, c: string, zs: seq<string>)
    requires |head| == 2 && !head[0].Caption? && !head[1].Caption?
    requires |a| != |b| && |b| != |c| && |a| != |c|
    ensures var all := head + (CaptionedList(a, xs) + CaptionedList(b, ys) + CaptionedList(c, zs));
      (Caption(a) in all <==> |xs| > 0) && (Caption(b) in all <==> |ys| > 0) && (Caption(c) in all <==> |zs| > 0)
  {
    var l1, l2, l3 := CaptionedList(a, xs), CaptionedList(b, ys), CaptionedList(c, zs);
    assert forall x :: x in head + (l1 + l2 + l3) <==> x in head || x in l1 || x in l2 || x in l3;
    assert Caption(a) !in head && Caption(b) !in head && Caption(c) !in head;
  }

  /** The four sections, in page order. */
  function SectionBlocks(sections: JobFit.Sections): (blocks: seq<Block>)
    ensures blocks == RenderSection("Relevant Experience", sections.relevantExperience) +
      RenderSection("Seniority", sections.seniority) + RenderSection("Education", sections.education) +
      RenderSkills(sections.skillsAlignment)
    ensures NoListHeading(blocks)
  {
    var a := RenderSection("Relevant Experience", sections.relevantExperience);
    var b := RenderSection("Seniority", sections.seniority);
    var c := RenderSection("Education", sections.education);
    var d := RenderSkills(sections.skillsAlignment);
    NoListHeadingAppend(a, b);
    NoListHeadingAppend(a + b, c);
    NoListHeadingAppend(a + b + c, d);
    a + b + c + d
  }

  /** The four section headings, and only they, in page order. */
  lemma SectionHeadingsInPageOrder(sections: JobFit.Sections)
    ensures HeadingTitles(SectionBlocks(sections)) ==
      ["Relevant Experience", "Seniority", "Education", "Skills Alignment"]
  {
    FourHeadings(RenderSection("Relevant Experience", sections.relevantExperience),
      RenderSection("Seniority", sections.seniority), RenderSection("Education", sections.education),
      RenderSkills(sections.skillsAlignment));
  }

  lemma FourHeadings(a: seq<Block>, b: seq<Block>, c: seq<Block>, d: seq<Block>)
    ensures HeadingTitles(a + b + c + d) == HeadingTitles(a) + HeadingTitles(b) + HeadingTitles(c) + HeadingTitles(d)
  {
    HeadingTitlesAppend(a + b + c, d);
    HeadingTitlesAppend(a + b, c);
    HeadingTitlesAppend(a, b);
  }

  /** A titled list, present only when the list is non-empty. */
  function TitledList(title: string, items: seq<string>): (blocks: seq<Block>)
    ensures |items| == 0 ==> blocks == []
    ensures |items| > 0 ==> blocks == [ListHeading(title), Bullets(items)]
    ensures ListHeading(title) in blocks <==> |items| > 0
    ensures NoHeading(blocks)
  {
    if |items| > 0 then [ListHeading(title), Bullets(items)] else []
  }

  /** The recommendation box: the verdict line, then the rationale. */
  function VerdictBlocks(rec: JobFit.Recommendation): (blocks: seq<Block>)
    ensures |blocks| == 2 && NoListHeading(blocks) && NoHeading(blocks)
    ensures blocks[0] == VerdictLine("Recommendation: " + JobFit.VerdictName(rec.verdict))
    ensures blocks[1] == Paragraph(rec.rationale)
  {
    [VerdictLine("Recommendation: " + JobFit.VerdictName(rec.verdict)), Paragraph(rec.rationale)]
  }

  /** The report below the score circles: the sections, strengths and gaps, and the verdict last. */
  function RenderReport(r: JobFit.Report): (blocks: seq<Block>)
    ensures |blocks| >= 2
    ensures blocks[|blocks| - 2] == VerdictLine("Recommendation: " + JobFit.VerdictName(r.recommendation.verdict))
    ensures blocks[|blocks| - 1] == Paragraph(r.recommendation.rationale)
  {
    var front := SectionBlocks(r.sections) + TitledList("Strengths", r.strengths) + TitledList("Gaps", r.gaps);
    EndsWithTwo(front, VerdictBlocks(r.recommendation));
    front + VerdictBlocks(r.recommendation)
  }

  /** The last two blocks of `front + last` are `last`'s, whatever `front` is. */
  lemma EndsWithTwo(front: seq<Block>, last: seq<Block>)
    requires |last| == 2
    ensures var all := front + last;
      |all| >= 2 && all[|all| - 2] == last[0] && all[|all| - 1] == last[1]
  {
  }

  /** Strengths and gaps are each listed exactly when there is at least one. */
  lemma ReportListsShownWhenNonEmpty(r: JobFit.Report)
    ensures ListHeading("Strengths") in RenderReport(r) <==> |r.strengths| > 0
    ensures ListHeading("Gaps") in RenderReport(r) <==> |r.gaps| > 0
  {
    TitledListsIn(SectionBlocks(r.sections), r.strengths, r.gaps, VerdictBlocks(r.recommendation));
  }

  /** The report's section headings are the four sections, in page order, and nothing else. */
  lemma ReportHeadingsInPageOrder(r: JobFit.Report)
    ensures HeadingTitles(RenderReport(r)) == ["Relevant Experience", "Seniority", "Education", "Skills Alignment"]
  {
    var strengths := TitledList("Strengths", r.strengths);
    var gaps := TitledList("Gaps", r.gaps);
    var verdict := VerdictBlocks(r.recommendation);
    SectionHeadingsInPageOrder(r.sections);
    FourHeadings(SectionBlocks(r.sections), strengths, gaps, verdict);
    NoHeadingTitles(strengths);
    NoHeadingTitles(gaps);
    NoHeadingTitles(verdict);
  }

  /** Between blocks without list headings, the strengths and gaps headings come only from their lists. */
  lemma TitledListsIn(body: seq<Block>, strengths: seq<string>, gaps: seq<string>, verdict: seq<Block>)
    requires NoListHeading(body) && NoListHeading(verdict)
    ensures var all := body + TitledList("Strengths", strengths) + TitledList("Gaps", gaps) + verdict;
      (ListHeading("Strengths") in all <==> |strengths| > 0) && (ListHeading("Gaps") in all <==> |gaps| > 0)
  {
    assert ListHeading("Strengths") !in body && ListHeading("Gaps") !in body;
    assert ListHeading("Strengths") !in verdict && ListHeading("Gaps") !in verdict;
  }

  lemma NoListHeadingAppend(a: seq<Block>, b: seq<Block>)
    requires NoListHeading(a) && NoListHeading(b)
    ensures NoListHeading(a + b)
  {
    assert forall i :: 0 <= i < |a + b| ==> (a + b)[i] == if i < |a| then a[i] else b[i - |a|];
  }

  // ---------------------------------------------------------------------------
  // The side panel

  /** The side panel's contents; `Nothing` is the `null` the last branch falls back to. */
  datatype Panel = Upsell | Extracting | Analyzing | ReadyToAnalyze | Uploader | AnalysisView | Nothing

  /**
   * The panel precedence: the upsell when not upgraded, then extraction in
   * progress, analysis in progress, a resume read but not analysed, nothing
   * read yet, and finally the analysis. The `null` fallback is unreachable.
   */
  function SidePanel(upgraded: bool, isExtracting: bool, isAnalyzing: bool, extracted: bool, analysed: bool): (p: Panel)
    ensures p != Nothing
    ensures p == Upsell <==> !upgraded
    ensures p == Extracting <==> upgraded && isExtracting
    ensures p == Analyzing <==> upgraded && !isExtracting && isAnalyzing
    ensures p == ReadyToAnalyze <==> upgraded && !isExtracting && !isAnalyzing && extracted && !analysed
    ensures p == Uploader <==> upgraded && !isExtracting && !isAnalyzing && !extracted && !analysed
    ensures p == AnalysisView <==> upgraded && !isExtracting && !isAnalyzing && analysed
  {
    if !upgraded then Upsell
    else if isExtracting then Extracting
    else if isAnalyzing then Analyzing
    else if extracted && !analysed then ReadyToAnalyze
    else if !extracted && !analysed then Uploader
    else if analysed then AnalysisView
    else Nothing
  }

  // ---------------------------------------------------------------------------
  // Requests

  datatype Request = Request(url: string, body: Json)

  const JobFitUrl: string := "/api/jobFit"
  const CreateInterviewUrl: string := "/api/create-interview"
  const CreateAssistantUrl: string := "/api/create-assistant"

  const InterviewerName: string := "Avery"
  const InterviewerGreeting: string := "Hey there. Welcome to the interview. Let's get started?"
  const InterviewerVoice: string := "MnUw1cSnpiLoLhpd3Hqp"

  /** An unselected brutality level is sent as "2"; a selected one as it is. */
  function BrutalityToSend(level: string): (sent: string)
    ensures |level| == 0 ==> sent == "2"
    ensures |level| > 0 ==> sent == level
  {
    if |level| == 0 then "2" else level
  }

  /** The create button is disabled exactly when the count is 0 or no resume text was extracted. */
  function CreateEnabled(numberOfQuestions: int, finalExtracted: Option<string>): (enabled: bool)
    ensures !enabled <==> numberOfQuestions == 0 || finalExtracted.None?
  {
    !(numberOfQuestions == 0 || finalExtracted.None?)
  }

  /** `JSON.stringify` leaves out a key whose value is undefined. */
  function WithOptional(fields: map<string, Json>, key: string, v: JsValue): (m: map<string, Json>)
    ensures key in m <==> key in fields || v.Some?
    ensures v.Some? ==> m[key] == v.value
    ensures forall k :: k != key ==> (k in m <==> k in fields)
    ensures forall k :: k != key && k in fields ==> m[k] == fields[k]
  {
    if v.Some? then fields[key := v.value] else fields
  }

  function AnalysisRequestBody(jobData: Json, text: string): Json {
    JObj(map["job" := jobData, "resume" := JStr(text)])
  }

  /** The interview request: the resume is absent when nothing was extracted. */
  function InterviewRequestBody(jobData: Json, finalExtracted: Option<string>, count: int, level: string): (body: Json)
    ensures body.JObj? && body.fields.Keys ==
      {"job", "num_questions", "brutality_level"} + (if finalExtracted.Some? then {"resume"} else {})
    ensures body.fields["job"] == jobData
    ensures body.fields["num_questions"] == JNum(count)
    ensures body.fields["brutality_level"] == JStr(BrutalityToSend(level))
    ensures finalExtracted.Some? ==> body.fields["resume"] == JStr(finalExtracted.value)
  {
    var resume := if finalExtracted.Some? then Some(JStr(finalExtracted.value)) else None;
    JObj(WithOptional(
      map["job" := jobData, "num_questions" := JNum(count), "brutality_level" := JStr(BrutalityToSend(level))],
      "resume", resume))
  }

  /** The assistant request: the fixed name, greeting and voice, and the generated prompt if there was one. */
  function AssistantRequestBody(systemPrompt: JsValue): (body: Json)
    ensures body.JObj? && body.fields.Keys ==
      {"name", "firstMessage", "voiceID"} + (if systemPrompt.Some? then {"systemPrompt"} else {})
    ensures body.fields["name"] == JStr("Avery")
    ensures body.fields["firstMessage"] == JStr("Hey there. Welcome to the interview. Let's get started?")
    ensures body.fields["voiceID"] == JStr("MnUw1cSnpiLoLhpd3Hqp")
    ensures systemPrompt.Some? ==> body.fields["systemPrompt"] == systemPrompt.value
  {
    JObj(WithOptional(
      map["name" := JStr(InterviewerName), "firstMessage" := JStr(InterviewerGreeting),
          "voiceID" := JStr(InterviewerVoice)],
      "systemPrompt", systemPrompt))
  }

  /** How an awaited fetch ended: it rejected, or a response with a status and a body that may not parse. */
  datatype FetchOutcome = NetworkFailure(message: string) | Answer(status: int, body: Result<Json, string>)

  /**
   * Awaiting the fetch, throwing unless `res.ok`, and reading the JSON body:
   * the body, or the message of what was thrown.
   */
  function ReadOk(o: FetchOutcome): (r: Result<Json, string>)
    ensures r.Success? <==> o.Answer? && IsOk(o.status) && o.body.Success?
    ensures r.Success? ==> r.value == o.body.value
  {
    match o
    case NetworkFailure(m) => Failure(m)
    case Answer(status, body) =>
      if !IsOk(status) then Failure("API error " + IntToString(status)) else body
  }

  // ---------------------------------------------------------------------------
  // The interview chain

  /** How `createInterview` ended: on the interview page, after logging an error body, or by throwing. */
  datatype ChainEnd = Navigated(path: string) | LoggedError | Threw(message: string)

  datatype Chain = Chain(requests: seq<Request>, end: ChainEnd)

  const InvalidAssistantMessage: string := "Failed to create assistant: invalid response"

  /** An ok answer whose JSON body is a non-null value without a truthy `error`. */
  predicate Accepted(o: FetchOutcome) {
    o.Answer? && IsOk(o.status) && o.body.Success? && o.body.value != JNull &&
    !Truthy(Member(Some(o.body.value), "error"))
  }

  /** The `assistant` field of an answer's body. */
  function AssistantOf(o: FetchOutcome): JsValue
    requires o.Answer? && o.body.Success?
  {
    Member(Some(o.body.value), "assistant")
  }

  /** An accepted answer carrying a truthy assistant with a truthy `id`. */
  predicate CarriesAssistantId(o: FetchOutcome) {
    Accepted(o) && Truthy(AssistantOf(o)) && Truthy(Member(AssistantOf(o), "id"))
  }

  /**
   * `createInterview`, given how its two fetches end. The second request is
   * sent only when the first answer is accepted, and the page moves to
   * `/interview/<id>` exactly when both answers are accepted and the
   * assistant has an id.
   */
  function InterviewChain(jobData: Json, finalExtracted: Option<string>, count: int, level: string,
                          first: FetchOutcome, second: FetchOutcome): (c: Chain)
    ensures |c.requests| == (if Accepted(first) then 2 else 1)
    ensures c.requests[0] == Request(CreateInterviewUrl, InterviewRequestBody(jobData, finalExtracted, count, level))
    ensures |c.requests| == 2 ==>
      c.requests[1] == Request(CreateAssistantUrl, AssistantRequestBody(Member(Some(first.body.value), "response")))
    ensures c.end.Navigated? <==> Accepted(first) && CarriesAssistantId(second)
    ensures c.end.Navigated? ==> c.end.path == "/interview/" + TemplateString(Member(AssistantOf(second), "id"))
  {
    var firstRequest := Request(CreateInterviewUrl, InterviewRequestBody(jobData, finalExtracted, count, level));
    match ReadOk(first)
    case Failure(m) => Chain([firstRequest], Threw(m))
    case Success(data) =>
      match Get(data, "error")
      case Failure(m) => Chain([firstRequest], Threw(m))
      case Success(error) =>
        if Truthy(error) then Chain([firstRequest], LoggedError)
        else
          var requests := [firstRequest,
            Request(CreateAssistantUrl, AssistantRequestBody(Member(Some(data), "response")))];
          match ReadOk(second)
          case Failure(m) => Chain(requests, Threw(m))
          case Success(data2) =>
            match Get(data2, "error")
            case Failure(m) => Chain(requests, Threw(m))
            case Success(error2) =>
              if Truthy(error2) then Chain(requests, LoggedError)
              else
                var assistant := Member(Some(data2), "assistant");
                if !Truthy(assistant) || !Truthy(Member(assistant, "id")) then
                  Chain(requests, Threw(InvalidAssistantMessage))
                else
                  Chain(requests, Navigated("/interview/" + TemplateString(Member(assistant, "id"))))
  }

  // ---------------------------------------------------------------------------
  // The page state and its transitions

  /** A file the user picked. */
  datatype FileRef = FileRef(id: nat)

  /** What the uploader hands over: one file (possibly none) or a list of files. */
  datatype Picked = Single(file: Option<FileRef>) | Several(files: seq<FileRef>)

  /** `Array.isArray(file) ? file[0] : file` */
  function PickedFile(p: Picked): (f: Option<FileRef>)
    ensures p.Several? ==> (f.Some? <==> |p.files| > 0) && (f.Some? ==> f.value == p.files[0])
    ensures p.Single? ==> f == p.file
  {
    match p
    case Single(f) => f
    case Several(fs) => if |fs| > 0 then Some(fs[0]) else None
  }

  /**
   * The page's state: its own fields plus what it has sent out (text
   * extractions started, requests, route changes). `finalAnalysis` starts as
   * `null` and holds whatever the analysis answer's `response` was.
   */
  datatype PageState = PageState(
    jobData: Json,
    upgraded: bool, interview: bool,
    file: Option<FileRef>, text: string, finalExtracted: Option<string>, finalAnalysis: JsValue,
    isExtracting: bool, isAnalyzing: bool,
    numberOfQuestions: int, brutalityLevel: string,
    extractions: seq<FileRef>, requests: seq<Request>, navigations: seq<string>)

  function InitialPage(jobData: Json): (s: PageState)
    ensures !s.upgraded && !s.interview && s.file.None? && s.text == ""
    ensures s.finalExtracted.None? && s.finalAnalysis == Some(JNull)
    ensures !s.isExtracting && !s.isAnalyzing
    ensures s.numberOfQuestions == 4 && s.brutalityLevel == ""
    ensures s.extractions == [] && s.requests == [] && s.navigations == []
  {
    PageState(jobData, false, false, None, "", None, Some(JNull), false, false, 4, "", [], [], [])
  }

  /** The side panel of the main view in state `s`. */
  function PanelOf(s: PageState): Panel {
    SidePanel(s.upgraded, s.isExtracting, s.isAnalyzing, s.finalExtracted.Some?, Truthy(s.finalAnalysis))
  }

  /** What the page shows: the interview options in place of everything else, or the main view and its side panel. */
  datatype Screen = InterviewOptions | MainView(panel: Panel)

  function ScreenOf(s: PageState): (v: Screen)
    ensures v == InterviewOptions <==> s.interview
    ensures !s.interview ==> v == MainView(PanelOf(s))
  {
    if s.interview then InterviewOptions else MainView(PanelOf(s))
  }

  /** The synchronous start of `extractText`: busy, previous result cleared, extraction started. */
  function ExtractionStarted(s: PageState, f: FileRef): (t: PageState)
    ensures t.isExtracting && t.finalExtracted.None?
    ensures |t.extractions| == |s.extractions| + 1 && t.extractions[|s.extractions|] == f
    ensures t.extractions[..|s.extractions|] == s.extractions
    ensures t.(isExtracting := s.isExtracting, finalExtracted := s.finalExtracted, extractions := s.extractions) == s
  {
    s.(isExtracting := true, finalExtracted := None, extractions := s.extractions + [f])
  }

  /** `handleChange`: nothing without a file; otherwise remember it and start extracting. */
  function FileChosen(s: PageState, p: Picked): (t: PageState)
    ensures PickedFile(p).None? ==> t == s
    ensures PickedFile(p).Some? ==>
      t == ExtractionStarted(s.(file := PickedFile(p)), PickedFile(p).value)
  {
    match PickedFile(p)
    case None => s
    case Some(f) => ExtractionStarted(s.(file := Some(f)), f)
  }

  /** The end of `extractText`: the text on success (failure is only logged), and never busy afterwards. */
  function ExtractionFinished(s: PageState, extracted: Option<string>): (t: PageState)
    ensures !t.isExtracting
    ensures extracted.Some? ==> t == s.(text := extracted.value, finalExtracted := extracted, isExtracting := false)
    ensures extracted.None? ==> t == s.(isExtracting := false)
  {
    match extracted
    case Some(x) => s.(text := x, finalExtracted := Some(x), isExtracting := false)
    case None => s.(isExtracting := false)
  }

  /** The synchronous start of `analyzeProfile`: nothing at all without resume text. */
  function AnalysisStarted(s: PageState): (t: PageState)
    ensures s.text == "" ==> t == s
    ensures s.text != "" ==> t == s.(isAnalyzing := true, finalAnalysis := Some(JNull),
      requests := s.requests + [Request(JobFitUrl, AnalysisRequestBody(s.jobData, s.text))])
  {
    if s.text == "" then s
    else s.(isAnalyzing := true, finalAnalysis := Some(JNull),
      requests := s.requests + [Request(JobFitUrl, AnalysisRequestBody(s.jobData, s.text))])
  }

  /**
   * The end of `analyzeProfile`: the answer's `response` is stored only when
   * the answer was ok and its body a non-null JSON value; the page is never
   * busy afterwards.
   */
  function AnalysisFinished(s: PageState, answer: FetchOutcome): (t: PageState)
    ensures !t.isAnalyzing
    ensures ReadOk(answer).Success? && ReadOk(answer).value != JNull ==>
      t == s.(finalAnalysis := Member(Some(ReadOk(answer).value), "response"), isAnalyzing := false)
    ensures !(ReadOk(answer).Success? && ReadOk(answer).value != JNull) ==> t == s.(isAnalyzing := false)
  {
    match ReadOk(answer)
    case Success(data) =>
      if data == JNull then s.(isAnalyzing := false)
      else s.(finalAnalysis := Member(Some(data), "response"), isAnalyzing := false)
    case Failure(_) => s.(isAnalyzing := false)
  }

  /** `createInterview`: the requests it sent and, when it got that far, the route change. */
  function InterviewCreated(s: PageState, first: FetchOutcome, second: FetchOutcome): (t: PageState)
    ensures |t.requests| == |s.requests| + (if Accepted(first) then 2 else 1)
    ensures t.requests[..|s.requests|] == s.requests
    ensures t.requests[|s.requests|] ==
      Request(CreateInterviewUrl, InterviewRequestBody(s.jobData, s.finalExtracted, s.numberOfQuestions, s.brutalityLevel))
    ensures Accepted(first) ==>
      t.requests[|s.requests| + 1] ==
        Request(CreateAssistantUrl, AssistantRequestBody(Member(Some(first.body.value), "response")))
    ensures |t.navigations| == |s.navigations| + (if Accepted(first) && CarriesAssistantId(second) then 1 else 0)
    ensures t.navigations[..|s.navigations|] == s.navigations
    ensures |t.navigations| > |s.navigations| ==>
      t.navigations[|s.navigations|] == "/interview/" + TemplateString(Member(AssistantOf(second), "id"))
    ensures t.(requests := s.requests, navigations := s.navigations) == s
  {
    var c := InterviewChain(s.jobData, s.finalExtracted, s.numberOfQuestions, s.brutalityLevel, first, second);
    s.(requests := s.requests + c.requests,
       navigations := s.navigations + (if c.end.Navigated? then [c.end.path] else []))
  }

  // ---------------------------------------------------------------------------
  // Properties of the transitions

  /**
   * On the main view, while a resume is being read the panel says so;
   * afterwards it offers the analysis when the text came back, and the
   * uploader again when it did not and there was no earlier result.
   */
  lemma ExtractionPanels(s: PageState, f: FileRef, extracted: Option<string>)
    requires !s.interview && s.upgraded && !s.isAnalyzing && !Truthy(s.finalAnalysis)
    ensures ScreenOf(ExtractionStarted(s, f)) == MainView(Extracting)
    ensures extracted.Some? ==> ScreenOf(ExtractionFinished(ExtractionStarted(s, f), extracted)) == MainView(ReadyToAnalyze)
    ensures extracted.None? ==> ScreenOf(ExtractionFinished(ExtractionStarted(s, f), extracted)) == MainView(Uploader)
    ensures ExtractionFinished(ExtractionStarted(s, f), extracted).text == (if extracted.Some? then extracted.value else s.text)
  {
  }

  /**
   * Once "Start Interview" was pressed the options replace the main view for
   * good: nothing the page does afterwards, including a settling extraction
   * or analysis, brings the main view or its side panel back.
   */
  lemma InterviewOptionsStay(s: PageState, p: Picked, extracted: Option<string>, answer: FetchOutcome,
                             first: FetchOutcome, second: FetchOutcome, n: int, level: string)
    requires s.interview
    ensures ScreenOf(FileChosen(s, p)) == InterviewOptions
    ensures ScreenOf(ExtractionFinished(s, extracted)) == InterviewOptions
    ensures ScreenOf(AnalysisStarted(s)) == InterviewOptions
    ensures ScreenOf(AnalysisFinished(s, answer)) == InterviewOptions
    ensures ScreenOf(InterviewCreated(s, first, second)) == InterviewOptions
    ensures ScreenOf(s.(upgraded := true, numberOfQuestions := n, brutalityLevel := level)) == InterviewOptions
  {
    var created := InterviewCreated(s, first, second);
    assert created.interview == created.(requests := s.requests, navigations := s.navigations).interview;
  }

  /** Analysing with resume text always sends exactly one request to the job-fit route and ends idle. */
  lemma AnalysisRoundSendsOneRequest(s: PageState, answer: FetchOutcome)
    requires s.text != ""
    ensures
      var t := AnalysisFinished(AnalysisStarted(s), answer);
      !t.isAnalyzing && t.requests == s.requests + [Request(JobFitUrl, AnalysisRequestBody(s.jobData, s.text))] &&
      t.text == s.text && t.finalExtracted == s.finalExtracted
  {
  }

  /**
   * On the main view, a successful job-fit answer ends on the analysis panel
   * with a report that passes the schema, whatever the panel showed before.
   */
  lemma SuccessfulAnalysisShowsReport(s: PageState, serialize: Json -> string, reply: JobFit.ObjectReply)
    requires !s.interview && s.upgraded && !s.isExtracting && s.text != ""
    requires JobFit.Post(Success(AnalysisRequestBody(s.jobData, s.text)), serialize, reply).response.status == 200
    ensures
      var r := JobFit.Post(Success(AnalysisRequestBody(s.jobData, s.text)), serialize, reply).response;
      var t := AnalysisFinished(AnalysisStarted(s), Answer(r.status, Success(r.body)));
      ScreenOf(t) == MainView(AnalysisView) && JobFit.ParseReport(t.finalAnalysis).Some?
  {
    var body := AnalysisRequestBody(s.jobData, s.text);
    var r := JobFit.Post(Success(body), serialize, reply).response;
    JobFit.SuccessCarriesValidReport(Success(body), serialize, reply);
    ReportAnswerShowsReport(s, r.status, r.body);
  }

  /** An ok answer whose `response` passes the schema leaves the main view on the analysis panel. */
  lemma ReportAnswerShowsReport(s: PageState, status: int, body: Json)
    requires !s.interview && s.upgraded && !s.isExtracting && s.text != ""
    requires IsOk(status) && body.JObj? && "response" in body.fields
    requires JobFit.ParseReport(Some(body.fields["response"])).Some?
    ensures
      var t := AnalysisFinished(AnalysisStarted(s), Answer(status, Success(body)));
      ScreenOf(t) == MainView(AnalysisView) && JobFit.ParseReport(t.finalAnalysis).Some?
  {
    assert Member(Some(body), "response") == Some(body.fields["response"]);
  }

  /**
   * An extracted but empty resume never leads to the interview page: the
   * create-interview route refuses it with status 400, so the page throws
   * before it reads the error body and never asks for an assistant.
   */
  lemma EmptyResumeNeverNavigates(jobData: Json, count: int, level: string, serialize: Json -> string,
                                  reply: CreateInterview.TextReply, second: FetchOutcome)
    ensures
      var r := CreateInterview.Post(Success(InterviewRequestBody(jobData, Some(""), count, level)), serialize, reply).response;
      var c := InterviewChain(jobData, Some(""), count, level, Answer(r.status, Success(r.body)), second);
      c.end == Threw("API error " + IntToString(400)) && |c.requests| == 1
  {
    var body := InterviewRequestBody(jobData, Some(""), count, level);
    assert Member(Some(body), "resume") == Some(JStr(""));
    assert !Truthy(Member(Some(body), "resume"));
    var r := CreateInterview.Post(Success(body), serialize, reply).response;
    assert r.status == 400;
  }

  /**
   * Neither route answers an ok status with an `error` field, so the page's
   * two "error in body" branches are never reached from these routes: every
   * refusal arrives as a non-ok status and makes the page throw instead.
   */
  lemma OkAnswersCarryNoError(body: Result<Json, string>, serialize: Json -> string,
                              interviewReply: CreateInterview.TextReply, assistantReply: CreateAssistant.CreateReply)
    ensures
      var r := CreateInterview.Post(body, serialize, interviewReply).response;
      IsOk(r.status) ==> !Truthy(Member(Some(r.body), "error"))
    ensures
      var r := CreateAssistant.Post(body, assistantReply).response;
      IsOk(r.status) ==> !Truthy(Member(Some(r.body), "error"))
  {
    InterviewOkAnswerHasNoError(body, serialize, interviewReply);
    AssistantOkAnswerHasNoError(body, assistantReply);
  }

  lemma InterviewOkAnswerHasNoError(body: Result<Json, string>, serialize: Json -> string,
                                    reply: CreateInterview.TextReply)
    ensures
      var r := CreateInterview.Post(body, serialize, reply).response;
      IsOk(r.status) ==> r.body == JObj(map["response" := JStr(reply.text)])
  {
  }

  lemma AssistantOkAnswerHasNoError(body: Result<Json, string>, reply: CreateAssistant.CreateReply)
    ensures
      var r := CreateAssistant.Post(body, reply).response;
      IsOk(r.status) ==> r.body == JObj(map["assistant" := reply.assistant])
  {
  }

  /**
   * With a job, resume text, a generated prompt and an assistant with an id,
   * the two routes and the page together end on `/interview/<id>`.
   */
  lemma HappyPathNavigates(jobData: Json, resume: string, count: int, level: string,
                           serialize: Json -> string, prompt: string, assistantId: string)
    requires Truthy(Some(jobData)) && resume != "" && prompt != "" && assistantId != ""
    ensures
      var r1 := CreateInterview.Post(Success(InterviewRequestBody(jobData, Some(resume), count, level)),
        serialize, CreateInterview.Generated(prompt)).response;
      var r2 := CreateAssistant.Post(Success(AssistantRequestBody(Some(JStr(prompt)))),
        CreateAssistant.Created(JObj(map["id" := JStr(assistantId)]))).response;
      InterviewChain(jobData, Some(resume), count, level, Answer(r1.status, Success(r1.body)),
        Answer(r2.status, Success(r2.body))).end == Navigated("/interview/" + assistantId)
  {
    InterviewRouteAnswersPrompt(jobData, resume, count, level, serialize, prompt);
    AssistantRouteAnswersAssistant(prompt, JObj(map["id" := JStr(assistantId)]));
    AcceptedAnswersNavigate(jobData, Some(resume), count, level, prompt, assistantId);
  }

  /** An answer carrying a prompt followed by one carrying an assistant with an id ends on that id's page. */
  lemma AcceptedAnswersNavigate(jobData: Json, finalExtracted: Option<string>, count: int, level: string,
                                prompt: string, assistantId: string)
    requires assistantId != ""
    ensures
      var assistant := JObj(map["id" := JStr(assistantId)]);
      InterviewChain(jobData, finalExtracted, count, level,
        Answer(200, Success(JObj(map["response" := JStr(prompt)]))),
        Answer(200, Success(JObj(map["assistant" := assistant])))).end == Navigated("/interview/" + assistantId)
  {
    var first := Answer(200, Success(JObj(map["response" := JStr(prompt)])));
    assert Member(Some(first.body.value), "error") == None;
    assert Accepted(first);
    var assistant := JObj(map["id" := JStr(assistantId)]);
    var second := Answer(200, Success(JObj(map["assistant" := assistant])));
    assert Member(Some(second.body.value), "error") == None;
    assert AssistantOf(second) == Some(assistant);
    assert Member(Some(assistant), "id") == Some(JStr(assistantId));
    assert CarriesAssistantId(second);
  }

  /** The create-interview route answers a request with a job and resume text with the generated text. */
  lemma InterviewRouteAnswersPrompt(jobData: Json, resume: string, count: int, level: string,
                                    serialize: Json -> string, prompt: string)
    requires Truthy(Some(jobData)) && resume != ""
    ensures
      var r := CreateInterview.Post(Success(InterviewRequestBody(jobData, Some(resume), count, level)),
        serialize, CreateInterview.Generated(prompt)).response;
      r == Response(200, JObj(map["response" := JStr(prompt)]))
  {
    var body := InterviewRequestBody(jobData, Some(resume), count, level);
    assert Member(Some(body), "job") == Some(jobData);
    assert Member(Some(body), "resume") == Some(JStr(resume));
  }

  /** The create-assistant route answers the page's request for a generated prompt with the created assistant. */
  lemma AssistantRouteAnswersAssistant(prompt: string, assistant: Json)
    requires prompt != ""
    ensures
      var r := CreateAssistant.Post(Success(AssistantRequestBody(Some(JStr(prompt)))),
        CreateAssistant.Created(assistant)).response;
      r == Response(200, JObj(map["assistant" := assistant]))
  {
    var f := CreateAssistant.Destructure(AssistantRequestBody(Some(JStr(prompt)))).value;
    assert f.name == Some(JStr(InterviewerName));
    assert f.firstMessage == Some(JStr(InterviewerGreeting));
    assert f.voiceId == Some(JStr(InterviewerVoice));
    assert f.systemPrompt == Some(JStr(prompt));
  }

  // ---------------------------------------------------------------------------
  // The page controller

  class JobDetailPage {
    const jobData: Json
    var upgraded: bool
    var interview: bool
    var file: Option<FileRef>
    var text: string
    var finalExtracted: Option<string>
    var finalAnalysis: JsValue
    var isExtracting: bool
    var isAnalyzing: bool
    var numberOfQuestions: int
    var brutalityLevel: string
    /** What the page has sent out: text extractions started, requests, route changes. */
    var extractions: seq<FileRef>
    var requests: seq<Request>
    var navigations: seq<string>

    function State(): PageState
      reads this
    {
      PageState(jobData, upgraded, interview, file, text, finalExtracted, finalAnalysis,
        isExtracting, isAnalyzing, numberOfQuestions, brutalityLevel, extractions, requests, navigations)
    }

    constructor (jobData: Json)
      ensures State() == InitialPage(jobData)
    {
      this.jobData := jobData;
      upgraded, interview := false, false;
      file, text, finalExtracted, finalAnalysis := None, "", None, Some(JNull);
      isExtracting, isAnalyzing := false, false;
      numberOfQuestions, brutalityLevel := 4, "";
      extractions, requests, navigations := [], [], [];
    }

    /** The upsell's "Upgrade to check" button. */
    method Upgrade()
      modifies this
      ensures State() == old(State()).(upgraded := true)
    {
      upgraded := true;
    }

    /** The "Start Interview" button: switches to the interview options. */
    method OpenInterviewOptions()
      modifies this
      ensures State() == old(State()).(interview := true)
    {
      interview := true;
    }

    /** The question-count input. */
    method SetNumberOfQuestions(n: int)
      modifies this
      ensures State() == old(State()).(numberOfQuestions := n)
    {
      numberOfQuestions := n;
    }

    /** The brutality-level select ("" is "Select level"). */
    method SetBrutalityLevel(level: string)
      modifies this
      ensures State() == old(State()).(brutalityLevel := level)
    {
      brutalityLevel := level;
    }

    /** `handleChange` up to the awaited text extraction. */
    method HandleChange(p: Picked)
      modifies this
      ensures State() == FileChosen(old(State()), p)
    {
      var f := PickedFile(p);
      if f.None? {
        return;
      }
      file := f;
      StartExtraction(f.value);
    }

    /** `extractText` up to the awaited extraction. */
    method StartExtraction(f: FileRef)
      modifies this
      ensures State() == ExtractionStarted(old(State()), f)
    {
      isExtracting := true;
      finalExtracted := None;
      extractions := extractions + [f];
    }

    /** The extraction settled: with the text, or failed (`None`). */
    method FinishExtraction(extracted: Option<string>)
      modifies this
      ensures State() == ExtractionFinished(old(State()), extracted)
    {
      if extracted.Some? {
        text := extracted.value;
        finalExtracted := Some(extracted.value);
      }
      isExtracting := false;
    }

    /** `analyzeProfile` up to the awaited fetch; `sent` tells whether it got past the text guard. */
    method AnalyzeProfile() returns (sent: bool)
      modifies this
      ensures sent <==> old(text) != ""
      ensures State() == AnalysisStarted(old(State()))
    {
      if text == "" {
        return false;
      }
      isAnalyzing := true;
      finalAnalysis := Some(JNull);
      requests := requests + [Request(JobFitUrl, AnalysisRequestBody(jobData, text))];
      return true;
    }

    /** The job-fit fetch settled. */
    method FinishAnalysis(answer: FetchOutcome)
      modifies this
      ensures State() == AnalysisFinished(old(State()), answer)
    {
      var data := ReadOk(answer);
      if data.Success? && data.value != JNull {
        finalAnalysis := Member(Some(data.value), "response");
      }
      isAnalyzing := false;
    }

    /** The "Create Interview" button, which is only clickable while enabled, run to its end. */
    method CreateInterviewPressed(first: FetchOutcome, second: FetchOutcome)
      requires CreateEnabled(numberOfQuestions, finalExtracted)
      modifies this
      ensures State() == InterviewCreated(old(State()), first, second)
    {
      var c := InterviewChain(jobData, finalExtracted, numberOfQuestions, brutalityLevel, first, second);
      assert InterviewCreated(State(), first, second) == State().(requests := requests + c.requests,
        navigations := navigations + (if c.end.Navigated? then [c.end.path] else []));
      requests := requests + c.requests;
      if c.end.Navigated? {
        navigations := navigations + [c.end.path];
      }
    }

    /** What the page currently shows. */
    function Shown(): (v: Screen)
      reads this
      ensures v == InterviewOptions <==> interview
    {
      ScreenOf(State())
    }
  }
}

=== FILE: job_fit.dfy ===
/**
 * The job-fit route: the structured report the language model must return
 * (a schema of bounded integer scores, closed status and verdict
 * vocabularies, strings and string lists), the prompt that asks for it, and
 * the POST handler that checks its inputs and shapes the response.
 */
module JobFit {
  import opened Js

  // ---------------------------------------------------------------------------
  // The report

  datatype Status = Pass | Warning | Fail
  datatype Verdict = StrongFit | GoodFit | PartialFit | WeakFit

  datatype Scores = Scores(education: int, workExperience: int, skills: int, experienceLevel: int)
  datatype Section = Section(status: Status, summary: string, evidence: seq<string>)
  datatype SkillsAlignment = SkillsAlignment(
    status: Status, matchedSkills: seq<string>, missingRequiredSkills: seq<string>,
    preferredSkillsMatched: seq<string>, summary: string)
  datatype Sections = Sections(
    relevantExperience: Section, seniority: Section, education: Section, skillsAlignment: SkillsAlignment)
  datatype Recommendation = Recommendation(verdict: Verdict, rationale: string)
  datatype Report = Report(
    overallMatch: int, scores: Scores, sections: Sections,
    strengths: seq<string>, gaps: seq<string>, recommendation: Recommendation)

  /** An integer score from 0 to 100, both ends included. */
  predicate Percent(n: int) { 0 <= n <= 100 }

  predicate ValidScores(s: Scores) {
    Percent(s.education) && Percent(s.workExperience) && Percent(s.skills) && Percent(s.experienceLevel)
  }

  /** What the schema demands beyond the shape the datatypes already fix. */
  predicate Valid(r: Report) {
    Percent(r.overallMatch) && ValidScores(r.scores)
  }

  function StatusName(s: Status): string {
    match s
    case Pass => "pass"
    case Warning => "warning"
    case Fail => "fail"
  }

  function VerdictName(v: Verdict): string {
    match v
    case StrongFit => "Strong Fit"
    case GoodFit => "Good Fit"
    case PartialFit => "Partial Fit"
    case WeakFit => "Weak Fit"
  }

  // ---------------------------------------------------------------------------
  // Validation: a JSON value is accepted exactly when it has the schema's shape

  // What the schema admits, stated on JSON values field by field.

  predicate PercentJson(v: JsValue) { v.Some? && v.value.JNum? && Percent(v.value.n) }

  predicate StringJson(v: JsValue) { v.Some? && v.value.JStr? }

  predicate StringArrayJson(v: JsValue) {
    v.Some? && v.value.JArr? && forall i :: 0 <= i < |v.value.items| ==> v.value.items[i].JStr?
  }

  predicate StatusJson(v: JsValue) {
    v == Some(JStr("pass")) || v == Some(JStr("warning")) || v == Some(JStr("fail"))
  }

  predicate VerdictJson(v: JsValue) {
    v == Some(JStr("Strong Fit")) || v == Some(JStr("Good Fit")) || v == Some(JStr("Partial Fit")) ||
    v == Some(JStr("Weak Fit"))
  }

  predicate ScoresConform(v: JsValue) {
    PercentJson(Member(v, "education")) && PercentJson(Member(v, "workExperience")) &&
    PercentJson(Member(v, "skills")) && PercentJson(Member(v, "experienceLevel"))
  }

  predicate SectionConforms(v: JsValue) {
    StatusJson(Member(v, "status")) && StringJson(Member(v, "summary")) && StringArrayJson(Member(v, "evidence"))
  }

  predicate SkillsAlignmentConforms(v: JsValue) {
    StatusJson(Member(v, "status")) && StringArrayJson(Member(v, "matchedSkills")) &&
    StringArrayJson(Member(v, "missingRequiredSkills")) && StringArrayJson(Member(v, "preferredSkillsMatched")) &&
    StringJson(Member(v, "summary"))
  }

  predicate SectionsConform(v: JsValue) {
    SectionConforms(Member(v, "relevantExperience")) && SectionConforms(Member(v, "seniority")) &&
    SectionConforms(Member(v, "education")) && SkillsAlignmentConforms(Member(v, "skillsAlignment"))
  }

  predicate RecommendationConforms(v: JsValue) {
    VerdictJson(Member(v, "verdict")) && StringJson(Member(v, "rationale"))
  }

  /** Every declared field, at every depth, is present and of its declared type; other keys are ignored. */
  predicate ReportConforms(v: JsValue) {
    PercentJson(Member(v, "overallMatch")) && ScoresConform(Member(v, "scores")) &&
    SectionsConform(Member(v, "sections")) && StringArrayJson(Member(v, "strengths")) &&
    StringArrayJson(Member(v, "gaps")) && RecommendationConforms(Member(v, "recommendation"))
  }

  /** The status vocabulary is closed: exactly the three names are accepted. */
  function ParseStatus(v: JsValue): (r: Option<Status>)
    ensures r.Some? <==> v in {Some(JStr("pass")), Some(JStr("warning")), Some(JStr("fail"))}
    ensures r.Some? ==> v == Some(JStr(StatusName(r.value)))
  {
    match v
    case Some(JStr(s)) =>
      if s == "pass" then Some(Pass)
      else if s == "warning" then Some(Warning)
      else if s == "fail" then Some(Fail)
      else None
    case _ => None
  }

  /** The verdict vocabulary is closed: exactly the four names are accepted. */
  function ParseVerdict(v: JsValue): (r: Option<Verdict>)
    ensures r.Some? <==>
      v in {Some(JStr("Strong Fit")), Some(JStr("Good Fit")), Some(JStr("Partial Fit")), Some(JStr("Weak Fit"))}
    ensures r.Some? ==> v == Some(JStr(VerdictName(r.value)))
  {
    match v
    case Some(JStr(s)) =>
      if s == "Strong Fit" then Some(StrongFit)
      else if s == "Good Fit" then Some(GoodFit)
      else if s == "Partial Fit" then Some(PartialFit)
      else if s == "Weak Fit" then Some(WeakFit)
      else None
    case _ => None
  }

  /** An integer number from 0 to 100. */
  function ParsePercent(v: JsValue): (r: Option<int>)
    ensures r.Some? <==> v.Some? && v.value.JNum? && Percent(v.value.n)
    ensures r.Some? ==> v == Some(JNum(r.value))
  {
    if v.Some? && v.value.JNum? && Percent(v.value.n) then Some(v.value.n) else None
  }

  function ParseText(v: JsValue): (r: Option<string>)
    ensures r.Some? <==> v.Some? && v.value.JStr?
    ensures r.Some? ==> v == Some(JStr(r.value))
  {
    if v.Some? && v.value.JStr? then Some(v.value.s) else None
  }

  /** An array every element of which is a string. */
  function ParseTexts(v: JsValue): (r: Option<seq<string>>)
    ensures r.Some? <==>
      v.Some? && v.value.JArr? && forall i :: 0 <= i < |v.value.items| ==> v.value.items[i].JStr?
    ensures r.Some? ==>
      |r.value| == |v.value.items| && forall i :: 0 <= i < |r.value| ==> v.value.items[i] == JStr(r.value[i])
  {
    if v.Some? && v.value.JArr? && forall i :: 0 <= i < |v.value.items| ==> v.value.items[i].JStr? then
      Some(seq(|v.value.items|, i requires 0 <= i < |v.value.items| => v.value.items[i].s))
    else None
  }

  function ParseScores(v: JsValue): (r: Option<Scores>)
    ensures r.Some? ==> ValidScores(r.value)
  {
    var education :- ParsePercent(Member(v, "education"));
    var workExperience :- ParsePercent(Member(v, "workExperience"));
    var skills :- ParsePercent(Member(v, "skills"));
    var experienceLevel :- ParsePercent(Member(v, "experienceLevel"));
    Some(Scores(education, workExperience, skills, experienceLevel))
  }

  function ParseSection(v: JsValue): Option<Section> {
    var status :- ParseStatus(Member(v, "status"));
    var summary :- ParseText(Member(v, "summary"));
    var evidence :- ParseTexts(Member(v, "evidence"));
    Some(Section(status, summary, evidence))
  }

  function ParseSkillsAlignment(v: JsValue): Option<SkillsAlignment> {
    var status :- ParseStatus(Member(v, "status"));
    var matched :- ParseTexts(Member(v, "matchedSkills"));
    var missing :- ParseTexts(Member(v, "missingRequiredSkills"));
    var preferred :- ParseTexts(Member(v, "preferredSkillsMatched"));
    var summary :- ParseText(Member(v, "summary"));
    Some(SkillsAlignment(status, matched, missing, preferred, summary))
  }

  function ParseSections(v: JsValue): Option<Sections> {
    var relevant :- ParseSection(Member(v, "relevantExperience"));
    var seniority :- ParseSection(Member(v, "seniority"));
    var education :- ParseSection(Member(v, "education"));
    var skills :- ParseSkillsAlignment(Member(v, "skillsAlignment"));
    Some(Sections(relevant, seniority, education, skills))
  }

  function ParseRecommendation(v: JsValue): Option<Recommendation> {
    var verdict :- ParseVerdict(Member(v, "verdict"));
    var rationale :- ParseText(Member(v, "rationale"));
    Some(Recommendation(verdict, rationale))
  }

  /**
   * The report schema as a validator: the accepted report (unknown keys
   * dropped) or `None`. Whatever it accepts keeps every score within 0..100.
   */
  function ParseReport(v: JsValue): (r: Option<Report>)
    ensures r.Some? ==> Valid(r.value)
  {
    var overall :- ParsePercent(Member(v, "overallMatch"));
    var scores :- ParseScores(Member(v, "scores"));
    var sections :- ParseSections(Member(v, "sections"));
    var strengths :- ParseTexts(Member(v, "strengths"));
    var gaps :- ParseTexts(Member(v, "gaps"));
    var recommendation :- ParseRecommendation(Member(v, "recommendation"));
    Some(Report(overall, scores, sections, strengths, gaps, recommendation))
  }

  /** The validator accepts exactly the values that conform to the schema, at every depth. */
  lemma ParseReportAcceptsConforming(v: JsValue)
    ensures ParseReport(v).Some? <==> ReportConforms(v)
  {
    ParseScoresAcceptsConforming(Member(v, "scores"));
    ParseSectionsAcceptsConforming(Member(v, "sections"));
    ParseRecommendationAcceptsConforming(Member(v, "recommendation"));
  }

  lemma ParseScoresAcceptsConforming(v: JsValue)
    ensures ParseScores(v).Some? <==> ScoresConform(v)
  {
  }

  lemma ParseSectionAcceptsConforming(v: JsValue)
    ensures ParseSection(v).Some? <==> SectionConforms(v)
  {
  }

  lemma ParseSkillsAlignmentAcceptsConforming(v: JsValue)
    ensures ParseSkillsAlignment(v).Some? <==> SkillsAlignmentConforms(v)
  {
  }

  lemma ParseSectionsAcceptsConforming(v: JsValue)
    ensures ParseSections(v).Some? <==> SectionsConform(v)
  {
    ParseSectionAcceptsConforming(Member(v, "relevantExperience"));
    ParseSectionAcceptsConforming(Member(v, "seniority"));
    ParseSectionAcceptsConforming(Member(v, "education"));
    ParseSkillsAlignmentAcceptsConforming(Member(v, "skillsAlignment"));
  }

  lemma ParseRecommendationAcceptsConforming(v: JsValue)
    ensures ParseRecommendation(v).Some? <==> RecommendationConforms(v)
  {
  }

  // What an accepted value is made of: each parser yields the input's own values.

  /** An accepted string array is the JSON of the strings it yields. */
  lemma ParseTextsValue(v: JsValue, ss: seq<string>)
    requires ParseTexts(v) == Some(ss)
    ensures v == Some(TextsJson(ss))
  {
    assert v.value.items == TextsJson(ss).items;
  }

  lemma ParseScoresValues(v: JsValue, s: Scores)
    requires ParseScores(v) == Some(s)
    ensures Member(v, "education") == Some(JNum(s.education))
    ensures Member(v, "workExperience") == Some(JNum(s.workExperience))
    ensures Member(v, "skills") == Some(JNum(s.skills))
    ensures Member(v, "experienceLevel") == Some(JNum(s.experienceLevel))
  {
  }

  lemma ParseSectionValues(v: JsValue, s: Section)
    requires ParseSection(v) == Some(s)
    ensures Member(v, "status") == Some(JStr(StatusName(s.status)))
    ensures Member(v, "summary") == Some(JStr(s.summary))
    ensures Member(v, "evidence") == Some(TextsJson(s.evidence))
  {
    ParseTextsValue(Member(v, "evidence"), s.evidence);
  }

  lemma ParseSkillsAlignmentValues(v: JsValue, s: SkillsAlignment)
    requires ParseSkillsAlignment(v) == Some(s)
    ensures Member(v, "status") == Some(JStr(StatusName(s.status)))
    ensures Member(v, "matchedSkills") == Some(TextsJson(s.matchedSkills))
    ensures Member(v, "missingRequiredSkills") == Some(TextsJson(s.missingRequiredSkills))
    ensures Member(v, "preferredSkillsMatched") == Some(TextsJson(s.preferredSkillsMatched))
    ensures Member(v, "summary") == Some(JStr(s.summary))
  {
    ParseTextsValue(Member(v, "matchedSkills"), s.matchedSkills);
    ParseTextsValue(Member(v, "missingRequiredSkills"), s.missingRequiredSkills);
    ParseTextsValue(Member(v, "preferredSkillsMatched"), s.preferredSkillsMatched);
  }

  /** The sections are the four nested objects as their own parsers read them. */
  lemma ParseSectionsValues(v: JsValue, s: Sections)
    requires ParseSections(v) == Some(s)
    ensures ParseSection(Member(v, "relevantExperience")) == Some(s.relevantExperience)
    ensures ParseSection(Member(v, "seniority")) == Some(s.seniority)
    ensures ParseSection(Member(v, "education")) == Some(s.education)
    ensures ParseSkillsAlignment(Member(v, "skillsAlignment")) == Some(s.skillsAlignment)
  {
  }

  lemma ParseRecommendationValues(v: JsValue, r: Recommendation)
    requires ParseRecommendation(v) == Some(r)
    ensures Member(v, "verdict") == Some(JStr(VerdictName(r.verdict)))
    ensures Member(v, "rationale") == Some(JStr(r.rationale))
  {
  }

  /**
   * An accepted report is the model's own values: the leaf members are the
   * input's members, and the nested objects are what their parsers read.
   */
  lemma ParseReportValues(v: JsValue, r: Report)
    requires ParseReport(v) == Some(r)
    ensures Member(v, "overallMatch") == Some(JNum(r.overallMatch))
    ensures ParseScores(Member(v, "scores")) == Some(r.scores)
    ensures ParseSections(Member(v, "sections")) == Some(r.sections)
    ensures Member(v, "strengths") == Some(TextsJson(r.strengths))
    ensures Member(v, "gaps") == Some(TextsJson(r.gaps))
    ensures ParseRecommendation(Member(v, "recommendation")) == Some(r.recommendation)
  {
    ParseTextsValue(Member(v, "strengths"), r.strengths);
    ParseTextsValue(Member(v, "gaps"), r.gaps);
  }

  /** The keys the report object must have. */
  const ReportKeys: set<string> := {"overallMatch", "scores", "sections", "strengths", "gaps", "recommendation"}

  /** An object that lacks one of the report's keys is rejected. */
  lemma MissingKeyRejected(fields: map<string, Json>, key: string)
    requires key in ReportKeys && key !in fields
    ensures ParseReport(Some(JObj(fields))) == None
  {
  }

  /** A scores object that lacks one of the four scores is rejected. */
  lemma MissingScoreRejected(fields: map<string, Json>, key: string)
    requires key in {"education", "workExperience", "skills", "experienceLevel"}
    requires "scores" in fields && fields["scores"].JObj? && key !in fields["scores"].fields
    ensures ParseReport(Some(JObj(fields))) == None
  {
    assert Member(Member(Some(JObj(fields)), "scores"), key) == None;
    ParseReportAcceptsConforming(Some(JObj(fields)));
  }

  /** A titled section that lacks its status, summary or evidence is rejected. */
  lemma MissingSectionFieldRejected(fields: map<string, Json>, section: string, key: string)
    requires section in {"relevantExperience", "seniority", "education"}
    requires key in {"status", "summary", "evidence"}
    requires "sections" in fields && fields["sections"].JObj? && section in fields["sections"].fields
    requires fields["sections"].fields[section].JObj? && key !in fields["sections"].fields[section].fields
    ensures ParseReport(Some(JObj(fields))) == None
  {
    var sections := Member(Some(JObj(fields)), "sections");
    assert Member(Member(sections, section), key) == None;
    ParseReportAcceptsConforming(Some(JObj(fields)));
  }

  /** A score outside 0..100 anywhere among the scores is rejected. */
  lemma OutOfRangeScoreRejected(fields: map<string, Json>, key: string, n: int)
    requires key in {"education", "workExperience", "skills", "experienceLevel"}
    requires "scores" in fields && fields["scores"].JObj? && fields["scores"].fields[key := JNum(n)] == fields["scores"].fields
    requires !Percent(n)
    ensures ParseReport(Some(JObj(fields))) == None
  {
    var scores := Member(Some(JObj(fields)), "scores");
    assert Member(scores, key) == Some(JNum(n));
  }

  // ---------------------------------------------------------------------------
  // Serialisation: the JSON the route sends back

  function TextsJson(ss: seq<string>): Json {
    JArr(seq(|ss|, i requires 0 <= i < |ss| => JStr(ss[i])))
  }

  function ScoresJson(s: Scores): Json {
    JObj(map["education" := JNum(s.education), "workExperience" := JNum(s.workExperience),
             "skills" := JNum(s.skills), "experienceLevel" := JNum(s.experienceLevel)])
  }

  function SectionJson(s: Section): Json {
    JObj(map["status" := JStr(StatusName(s.status)), "summary" := JStr(s.summary),
             "evidence" := TextsJson(s.evidence)])
  }

  function SkillsAlignmentJson(s: SkillsAlignment): Json {
    JObj(map["status" := JStr(StatusName(s.status)), "matchedSkills" := TextsJson(s.matchedSkills),
             "missingRequiredSkills" := TextsJson(s.missingRequiredSkills),
             "preferredSkillsMatched" := TextsJson(s.preferredSkillsMatched), "summary" := JStr(s.summary)])
  }

  function SectionsJson(s: Sections): Json {
    JObj(map["relevantExperience" := SectionJson(s.relevantExperience), "seniority" := SectionJson(s.seniority),
             "education" := SectionJson(s.education), "skillsAlignment" := SkillsAlignmentJson(s.skillsAlignment)])
  }

  function RecommendationJson(r: Recommendation): Json {
    JObj(map["verdict" := JStr(VerdictName(r.verdict)), "rationale" := JStr(r.rationale)])
  }

  function ReportJson(r: Report): Json {
    JObj(map["overallMatch" := JNum(r.overallMatch), "scores" := ScoresJson(r.scores),
             "sections" := SectionsJson(r.sections), "strengths" := TextsJson(r.strengths),
             "gaps" := TextsJson(r.gaps), "recommendation" := RecommendationJson(r.recommendation)])
  }

  lemma TextsRoundTrip(ss: seq<string>)
    ensures ParseTexts(Some(TextsJson(ss))) == Some(ss)
  {
    var r := ParseTexts(Some(TextsJson(ss)));
    assert r.Some?;
    assert r.value == ss;
  }

  lemma SectionRoundTrip(s: Section)
    ensures ParseSection(Some(SectionJson(s))) == Some(s)
  {
    TextsRoundTrip(s.evidence);
  }

  lemma SkillsAlignmentRoundTrip(s: SkillsAlignment)
    ensures ParseSkillsAlignment(Some(SkillsAlignmentJson(s))) == Some(s)
  {
    TextsRoundTrip(s.matchedSkills);
    TextsRoundTrip(s.missingRequiredSkills);
    TextsRoundTrip(s.preferredSkillsMatched);
  }

  lemma SectionsRoundTrip(s: Sections)
    ensures ParseSections(Some(SectionsJson(s))) == Some(s)
  {
    var v := Some(SectionsJson(s));
    assert Member(v, "relevantExperience") == Some(SectionJson(s.relevantExperience));
    assert Member(v, "seniority") == Some(SectionJson(s.seniority));
    assert Member(v, "education") == Some(SectionJson(s.education));
    assert Member(v, "skillsAlignment") == Some(SkillsAlignmentJson(s.skillsAlignment));
    SectionRoundTrip(s.relevantExperience);
    SectionRoundTrip(s.seniority);
    SectionRoundTrip(s.education);
    SkillsAlignmentRoundTrip(s.skillsAlignment);
  }

  lemma ScoresRoundTrip(s: Scores)
    requires ValidScores(s)
    ensures ParseScores(Some(ScoresJson(s))) == Some(s)
  {
  }

  lemma RecommendationRoundTrip(r: Recommendation)
    ensures ParseRecommendation(Some(RecommendationJson(r))) == Some(r)
  {
  }

  /** The report validator accepts a value exactly as its six fields are accepted. */
  lemma ParseReportFields(v: JsValue, r: Report)
    requires ParsePercent(Member(v, "overallMatch")) == Some(r.overallMatch)
    requires ParseScores(Member(v, "scores")) == Some(r.scores)
    requires ParseSections(Member(v, "sections")) == Some(r.sections)
    requires ParseTexts(Member(v, "strengths")) == Some(r.strengths)
    requires ParseTexts(Member(v, "gaps")) == Some(r.gaps)
    requires ParseRecommendation(Member(v, "recommendation")) == Some(r.recommendation)
    ensures ParseReport(v) == Some(r)
  {
  }

  /** The six members of a serialised report are the serialised fields. */
  lemma ReportJsonMembers(r: Report)
    ensures Member(Some(ReportJson(r)), "overallMatch") == Some(JNum(r.overallMatch))
    ensures Member(Some(ReportJson(r)), "scores") == Some(ScoresJson(r.scores))
    ensures Member(Some(ReportJson(r)), "sections") == Some(SectionsJson(r.sections))
    ensures Member(Some(ReportJson(r)), "strengths") == Some(TextsJson(r.strengths))
    ensures Member(Some(ReportJson(r)), "gaps") == Some(TextsJson(r.gaps))
    ensures Member(Some(ReportJson(r)), "recommendation") == Some(RecommendationJson(r.recommendation))
  {
  }

  /** Every valid report survives serialisation and validation unchanged. */
  lemma ReportRoundTrip(r: Report)
    requires Valid(r)
    ensures ParseReport(Some(ReportJson(r))) == Some(r)
  {
    ReportJsonMembers(r);
    ScoresRoundTrip(r.scores);
    SectionsRoundTrip(r.sections);
    TextsRoundTrip(r.strengths);
    TextsRoundTrip(r.gaps);
    RecommendationRoundTrip(r.recommendation);
    ParseReportFields(Some(ReportJson(r)), r);
  }

  // ---------------------------------------------------------------------------
  // The prompt

  const FitHead: string :=
    "\n" +
    "You are an expert hiring analyst and ATS-style job–candidate matching engine.\n" +
    "Your task is to evaluate how well a candidate fits a specific job role using ONLY the provided job details and the candidate’s resume text.\n" +
    "\n" +
    "You must:\n" +
    "\n" +
    "Be objective and evidence-based\n" +
    "\n" +
    "Explicitly reference resume evidence when making claims\n" +
    "\n" +
    "Avoid hallucinating skills, degrees, or experience\n" +
    "\n" +
    "Penalize missing or misaligned requirements\n" +
    "\n" +
    "Clearly distinguish between required vs preferred qualifications\n" +
    "\n" +
    "Produce output in valid JSON only, matching the exact schema provided below.\n" +
    "Do not include markdown, explanations, or extra text.\n" +
    "\n" +
    "-----------------------------\n" +
    "\n" +
    "JOB DETAILS:\n"

  const FitResumeLead: string :=
    "\n" +
    "\n" +
    "CANDIDATE RESUME (RAW TEXT):\n"

  const ScoringHead: string :=
    "\n" +
    "\n" +
    "TASK:\n" +
    "Evaluate how well this candidate fits the job and generate a structured rubric suitable for frontend display.\n" +
    "\n" +
    "SCORING RULES:\n" +
    "- All scores must be integers from 0–100\n"

  const WeightRules: string :=
    "- Overall match is a weighted average:\n" +
    "  - Skills: 35%\n" +
    "  - Work Experience: 30%\n" +
    "  - Education: 15%\n" +
    "  - Experience Level / Seniority: 20%\n"

  const FitTail: string :=
    "- Required qualifications missing must significantly reduce scores\n" +
    "- Preferred qualifications increase scores but cannot compensate for missing required ones\n" +
    "\n" +
    "OUTPUT JSON SCHEMA:\n" +
    "{\n" +
    "  \"overallMatch\": number,\n" +
    "\n" +
    "  \"scores\": {\n" +
    "    \"education\": number,\n" +
    "    \"workExperience\": number,\n" +
    "    \"skills\": number,\n" +
    "    \"experienceLevel\": number\n" +
    "  },\n" +
    "\n" +
    "  \"sections\": {\n" +
    "    \"relevantExperience\": {\n" +
    "      \"status\": \"pass\" | \"warning\" | \"fail\",\n" +
    "      \"summary\": string,\n" +
    "      \"evidence\": [string]\n" +
    "    },\n" +
    "\n" +
    "    \"seniority\": {\n" +
    "      \"status\": \"pass\" | \"warning\" | \"fail\",\n" +
    "      \"summary\": string,\n" +
    "      \"evidence\": [string]\n" +
    "    },\n" +
    "\n" +
    "    \"education\": {\n" +
    "      \"status\": \"pass\" | \"warning\" | \"fail\",\n" +
    "      \"summary\": string,\n" +
    "      \"evidence\": [string]\n" +
    "    },\n" +
    "\n" +
    "    \"skillsAlignment\": {\n" +
    "      \"status\": \"pass\" | \"warning\" | \"fail\",\n" +
    "      \"matchedSkills\": [string],\n" +
    "      \"missingRequiredSkills\": [string],\n" +
    "      \"preferredSkillsMatched\": [string],\n" +
    "      \"summary\": string\n" +
    "    }\n" +
    "  },\n" +
    "\n" +
    "  \"strengths\": [string],\n" +
    "  \"gaps\": [string],\n" +
    "\n" +
    "  \"recommendation\": {\n" +
    "    \"verdict\": \"Strong Fit\" | \"Good Fit\" | \"Partial Fit\" | \"Weak Fit\",\n" +
    "    \"rationale\": string\n" +
    "  }\n" +
    "}\n" +
    "\n" +
    "IMPORTANT:\n" +
    "- Base ALL judgments strictly on the resume content\n" +
    "- If something is unclear or missing, treat it as missing\n" +
    "- Keep summaries concise, professional, and frontend-friendly\n" +
    "\n" +
    "    "

  /** The prompt: the serialised job and the resume inside the analyst instructions. */
  function FitPrompt(jobText: string, resume: string): string {
    Concat([FitHead, jobText, FitResumeLead, resume, ScoringHead, WeightRules, FitTail])
  }

  /** The job and the resume appear verbatim, separated by the resume heading, and the weights are stated. */
  lemma FitPromptCarriesInputs(jobText: string, resume: string)
    ensures Contains(FitPrompt(jobText, resume), jobText + FitResumeLead + resume)
    ensures Contains(FitPrompt(jobText, resume), WeightRules)
  {
    SevenPiecesOccur(FitHead, jobText, FitResumeLead, resume, ScoringHead, WeightRules, FitTail);
  }

  lemma SevenPiecesOccur(a: string, b: string, c: string, d: string, e: string, f: string, g: string)
    ensures Contains(Concat([a, b, c, d, e, f, g]), b + c + d)
    ensures Contains(Concat([a, b, c, d, e, f, g]), f)
  {
    var ps := [a, b, c, d, e, f, g];
    PiecesOccur(ps, 1, 4);
    assert ps[1..4] == [b, c, d];
    ConcatThree(b, c, d);
    PiecesOccur(ps, 5, 6);
    assert ps[5..6] == [f];
    ConcatSingle(f);
  }

  /** The weights the prompt states, in percent. */
  const SkillsWeight := 35
  const WorkExperienceWeight := 30
  const EducationWeight := 15
  const ExperienceLevelWeight := 20

  /** The weighted average the prompt asks the model to report as the overall match. */
  function WeightedOverall(s: Scores): int {
    (SkillsWeight * s.skills + WorkExperienceWeight * s.workExperience +
     EducationWeight * s.education + ExperienceLevelWeight * s.experienceLevel) / 100
  }

  /** The weights add up to a whole, so the weighted average of valid scores is itself a valid score. */
  lemma WeightedOverallIsPercent(s: Scores)
    requires ValidScores(s)
    ensures Percent(WeightedOverall(s))
  {
    assert SkillsWeight + WorkExperienceWeight + EducationWeight + ExperienceLevelWeight == 100;
  }

  /**
   * The weighting is only asked for, never checked: a report whose overall
   * match disagrees with its scores is accepted as it is.
   */
  lemma OverallNotChecked()
    ensures
      var r := Report(0, Scores(100, 100, 100, 100),
        Sections(Section(Pass, "", []), Section(Pass, "", []), Section(Pass, "", []),
          SkillsAlignment(Pass, [], [], [], "")),
        [], [], Recommendation(StrongFit, ""));
      ParseReport(Some(ReportJson(r))) == Some(r) && r.overallMatch != WeightedOverall(r.scores)
  {
    var r := Report(0, Scores(100, 100, 100, 100),
      Sections(Section(Pass, "", []), Section(Pass, "", []), Section(Pass, "", []),
        SkillsAlignment(Pass, [], [], [], "")),
      [], [], Recommendation(StrongFit, ""));
    ReportRoundTrip(r);
  }

  // ---------------------------------------------------------------------------
  // The POST handler

  const MissingFieldsMessage: string := "Missing required fields: job and resume are required"

  /** The model SDK's error when the model's object does not match the schema. */
  const NoObjectMessage: string := "No object generated: response did not match schema."

  /** What the structured-output call gave back: the model's object, or what it threw. */
  datatype ObjectReply = Produced(raw: Json) | CallFailed(error: Thrown)

  /**
   * The POST handler. `body` is the request body as `req.json()` parsed it,
   * `serialize` is `JSON.stringify`, and `reply` is what the model call
   * produced if it was made.
   */
  function Post(body: Result<Json, string>, serialize: Json -> string, reply: ObjectReply): (r: RouteResult)
    ensures body.Failure? ==> r == RouteResult(FailedToCheck(ErrorInstance(body.error)), None)
    ensures body == Success(JNull) ==>
      r == RouteResult(FailedToCheck(ErrorInstance(NullAccessMessage("job"))), None)
    ensures body.Success? && body.value != JNull ==>
      var job := Member(Some(body.value), "job");
      var resume := Member(Some(body.value), "resume");
      (r.response.status == 400 <==> !Truthy(job) || !Truthy(resume)) &&
      (r.response.status == 400 ==>
        r == RouteResult(Response(400, JObj(map["error" := JStr(MissingFieldsMessage)])), None)) &&
      (Truthy(job) && Truthy(resume) ==>
        r.generationPrompt == Some(FitPrompt(serialize(job.value), TemplateString(resume))))
    ensures r.response.status == 200 <==>
      r.generationPrompt.Some? && reply.Produced? && ParseReport(Some(reply.raw)).Some?
    ensures r.response.status == 200 ==>
      r.response.body == JObj(map["response" := ReportJson(ParseReport(Some(reply.raw)).value)])
    ensures r.generationPrompt.Some? && reply.Produced? && ParseReport(Some(reply.raw)).None? ==>
      r.response == FailedToCheck(ErrorInstance(NoObjectMessage))
    ensures r.generationPrompt.Some? && reply.CallFailed? ==> r.response == FailedToCheck(reply.error)
  {
    match body
    case Failure(parseError) => RouteResult(FailedToCheck(ErrorInstance(parseError)), None)
    case Success(b) =>
      match Get(b, "job")
      case Failure(typeError) => RouteResult(FailedToCheck(ErrorInstance(typeError)), None)
      case Success(job) =>
        var resume := Member(Some(b), "resume");
        if !Truthy(job) || !Truthy(resume) then
          RouteResult(Response(400, JObj(map["error" := JStr(MissingFieldsMessage)])), None)
        else
          var prompt := FitPrompt(serialize(job.value), TemplateString(resume));
          match reply
          case CallFailed(e) => RouteResult(FailedToCheck(e), Some(prompt))
          case Produced(raw) =>
            match ParseReport(Some(raw))
            case None => RouteResult(FailedToCheck(ErrorInstance(NoObjectMessage)), Some(prompt))
            case Some(report) => RouteResult(Response(200, JObj(map["response" := ReportJson(report)])), Some(prompt))
  }

  /**
   * A successful answer always carries a report that passes the schema again,
   * with every score in range: the page can rely on the shape it renders.
   */
  lemma SuccessCarriesValidReport(body: Result<Json, string>, serialize: Json -> string, reply: ObjectReply)
    requires Post(body, serialize, reply).response.status == 200
    ensures
      var answer := Post(body, serialize, reply).response.body;
      answer.JObj? && "response" in answer.fields &&
      ParseReport(Some(answer.fields["response"])) == ParseReport(Some(reply.raw)) &&
      ParseReport(Some(answer.fields["response"])).Some? &&
      Valid(ParseReport(Some(answer.fields["response"])).value)
  {
    ReportRoundTrip(ParseReport(Some(reply.raw)).value);
  }
}

=== FILE: js.dfy ===
/**
 * The slice of JavaScript semantics the pages and API routes rely on: values
 * as JSON.parse produces them, `undefined`, truthiness (the `!x` guards),
 * property access (which throws on `null`), the string conversion used by
 * template literals, and the shape of a JSON HTTP response.
 */
module Js {

  datatype Option<+T> = None | Some(value: T) {
    predicate IsFailure() { None? }
    function PropagateFailure<U>(): Option<U>
      requires None?
    {
      None
    }
    function Extract(): T
      requires Some?
    {
      value
    }
  }

  datatype Result<+T, +E> = Success(value: T) | Failure(error: E)

  /** A JSON value. Numbers are restricted to integers in this model. */
  datatype Json =
    | JNull
    | JBool(b: bool)
    | JNum(n: int)
    | JStr(s: string)
    | JArr(items: seq<Json>)
    | JObj(fields: map<string, Json>)

  /** A JavaScript value read out of parsed JSON: `None` is `undefined`. */
  type JsValue = Option<Json>

  /** JavaScript truthiness: `undefined`, `null`, `false`, `0` and `""` are falsy. */
  predicate Truthy(v: JsValue) {
    match v
    case None => false
    case Some(JNull) => false
    case Some(JBool(b)) => b
    case Some(JNum(n)) => n != 0
    case Some(JStr(s)) => s != ""
    case Some(_) => true
  }

  /**
   * `v.key`: an own field of an object, `undefined` on every other non-null
   * value, and a TypeError on `null`.
   */
  function Get(v: Json, key: string): (r: Result<JsValue, string>)
    ensures r.Failure? <==> v.JNull?
    ensures r.Failure? ==> r.error == NullAccessMessage(key)
    ensures r.Success? ==> r.value == Member(Some(v), key)
  {
    match v
    case JNull => Failure(NullAccessMessage(key))
    case JObj(m) => Success(if key in m then Some(m[key]) else None)
    case _ => Success(None)
  }

  /** The TypeError message for reading `key` from `null`. */
  function NullAccessMessage(key: string): string {
    "Cannot read properties of null (reading '" + key + "')"
  }

  /**
   * The field `key` of `v` when `v` is an object that has it, and `undefined`
   * otherwise (what `v.key` yields on every value but `null`).
   */
  function Member(v: JsValue, key: string): (r: JsValue)
    ensures r.Some? ==> v.Some? && v.value.JObj? && key in v.value.fields && r.value == v.value.fields[key]
    ensures v.Some? && v.value.JObj? && key in v.value.fields ==> r.Some?
  {
    if v.Some? && v.value.JObj? && key in v.value.fields then Some(v.value.fields[key]) else None
  }

  /** A thrown value: an `Error` instance carries a message, anything else does not. */
  datatype Thrown = ErrorInstance(message: string) | NonErrorValue

  /** `error instanceof Error ? error.message : "Unknown error occurred"` */
  function ErrorText(e: Thrown): string {
    match e
    case ErrorInstance(m) => m
    case NonErrorValue => "Unknown error occurred"
  }

  /** A JSON HTTP response as NextResponse.json builds it. */
  datatype Response = Response(status: int, body: Json)

  /** Response.ok */
  predicate IsOk(status: int) { 200 <= status <= 299 }

  /**
   * The catch block the generation routes share: status 500 and
   * "Failed to check: " followed by the error's message.
   */
  function FailedToCheck(e: Thrown): (r: Response)
    ensures r.status == 500 && r.body.JObj? && r.body.fields.Keys == {"error"}
    ensures r.body.fields["error"] == JStr("Failed to check: " + ErrorText(e))
  {
    Response(500, JObj(map["error" := JStr("Failed to check: " + ErrorText(e))]))
  }

  /** What a route handler did: its response, and the prompt it sent to the model, if any. */
  datatype RouteResult = RouteResult(response: Response, generationPrompt: Option<string>)

  // ---------------------------------------------------------------------------
  // Decimal rendering of integers (how a number prints inside a template literal)

  function Digit(d: nat): (c: char)
    requires d < 10
    ensures '0' <= c <= '9' && c as int - '0' as int == d
  {
    ['0', '1', '2', '3', '4', '5', '6', '7', '8', '9'][d]
  }

  predicate IsDigits(s: string) {
    forall i :: 0 <= i < |s| ==> '0' <= s[i] <= '9'
  }

  /** The decimal digits of `n`, most significant first, without leading zeros. */
  function NatToString(n: nat): (s: string)
    ensures |s| > 0 && IsDigits(s)
    ensures |s| > 1 ==> s[0] != '0'
  {
    if n < 10 then [Digit(n)] else NatToString(n / 10) + [Digit(n % 10)]
  }

  /** `String(n)` for an integer `n`. */
  function IntToString(n: int): (s: string)
    ensures |s| > 0
    ensures n < 0 <==> s[0] == '-'
  {
    if n < 0 then "-" + NatToString(-n) else NatToString(n)
  }

  /** Reads a string of decimal digits back into the number it denotes. */
  function ParseDigits(s: string): nat
    requires IsDigits(s)
  {
    if s == [] then 0
    else ParseDigits(s[..|s| - 1]) * 10 + (s[|s| - 1] as int - '0' as int)
  }

  lemma {:induction false} ParseNatToString(n: nat)
    ensures ParseDigits(NatToString(n)) == n
  {
    if n >= 10 {
      var s := NatToString(n);
      assert s[..|s| - 1] == NatToString(n / 10);
      ParseNatToString(n / 10);
    }
  }

  /** Distinct numbers print differently, so a printed number identifies the number. */
  lemma NatToStringInjective(a: nat, b: nat)
    requires NatToString(a) == NatToString(b)
    ensures a == b
  {
    ParseNatToString(a);
    ParseNatToString(b);
  }

  lemma IntToStringInjective(a: int, b: int)
    requires IntToString(a) == IntToString(b)
    ensures a == b
  {
    var s := IntToString(a);
    if a < 0 {
      assert b < 0;
      assert s == "-" + NatToString(-a) == "-" + NatToString(-b);
      assert NatToString(-a) == s[1..] == NatToString(-b);
      NatToStringInjective(-a, -b);
    } else {
      assert b >= 0;
      NatToStringInjective(a, b);
    }
  }

  // ---------------------------------------------------------------------------
  // `${v}` inside a template literal

  /** Array.prototype.join(",") over already-converted elements. */
  function JoinWithCommas(parts: seq<string>): string {
    if parts == [] then ""
    else if |parts| == 1 then parts[0]
    else parts[0] + "," + JoinWithCommas(parts[1..])
  }

  /** `String(j)` for a JSON value. */
  function JsonToString(j: Json): string
    decreases j
  {
    match j
    case JNull => "null"
    case JBool(b) => if b then "true" else "false"
    case JNum(n) => IntToString(n)
    case JStr(s) => s
    case JArr(items) =>
      // join renders null elements as the empty string
      JoinWithCommas(seq(|items|, i requires 0 <= i < |items| =>
        if items[i].JNull? then "" else JsonToString(items[i])))
    case JObj(_) => "[object Object]"
  }

  /** `${v}`: the template-literal rendering of a possibly undefined value. */
  function TemplateString(v: JsValue): (s: string)
    ensures v.Some? && v.value.JStr? ==> s == v.value.s
    ensures v.Some? && v.value.JNum? ==> s == IntToString(v.value.n)
  {
    match v
    case None => "undefined"
    case Some(j) => JsonToString(j)
  }

  // ---------------------------------------------------------------------------
  // Substrings

  predicate OccursAt(s: string, t: string, i: int) {
    0 <= i && i + |t| <= |s| && s[i..i + |t|] == t
  }

  ghost predicate Contains(s: string, t: string) {
    exists i :: OccursAt(s, t, i)
  }

  /** The pieces written one after another. */
  function Concat(pieces: seq<string>): string {
    if pieces == [] then "" else pieces[0] + Concat(pieces[1..])
  }

  lemma {:induction false} ConcatAppend(a: seq<string>, b: seq<string>)
    ensures Concat(a + b) == Concat(a) + Concat(b)
  {
    if a == [] {
      assert a + b == b;
    } else {
      assert (a + b)[1..] == a[1..] + b;
      ConcatAppend(a[1..], b);
    }
  }

  lemma ConcatSingle(piece: string)
    ensures Concat([piece]) == piece
  {
    assert [piece][1..] == [];
  }

  lemma ConcatThree(a: string, b: string, c: string)
    ensures Concat([a, b, c]) == a + b + c
  {
    assert [a, b, c] == [a] + [b] + [c];
    ConcatAppend([a] + [b], [c]);
    ConcatAppend([a], [b]);
    ConcatSingle(a);
    ConcatSingle(b);
    ConcatSingle(c);
  }

  lemma ConcatFour(a: string, b: string, c: string, d: string)
    ensures Concat([a, b, c, d]) == a + b + c + d
  {
    assert [a, b, c, d] == [a, b, c] + [d];
    ConcatAppend([a, b, c], [d]);
    ConcatThree(a, b, c);
    ConcatSingle(d);
  }

  /** Any run of consecutive pieces occurs in the whole, where the pieces before it end. */
  lemma PiecesOccur(pieces: seq<string>, i: int, j: int)
    requires 0 <= i <= j <= |pieces|
    ensures OccursAt(Concat(pieces), Concat(pieces[i..j]), |Concat(pieces[..i])|)
    ensures Contains(Concat(pieces), Concat(pieces[i..j]))
  {
    assert pieces == pieces[..i] + pieces[i..j] + pieces[j..];
    ConcatAppend(pieces[..i] + pieces[i..j], pieces[j..]);
    ConcatAppend(pieces[..i], pieces[i..j]);
    InfixOccurs(Concat(pieces[..i]), Concat(pieces[i..j]), Concat(pieces[j..]));
  }

  /** A run of pieces that spells `t` puts `t` inside the whole. */
  lemma RunOccurs(ps: seq<string>, i: nat, j: nat, t: string)
    requires i <= j <= |ps| && Concat(ps[i..j]) == t
    ensures Contains(Concat(ps), t)
  {
    PiecesOccur(ps, i, j);
  }

  lemma ConcatOfThree(run: seq<string>)
    requires |run| == 3
    ensures Concat(run) == run[0] + run[1] + run[2]
  {
    assert run == [run[0], run[1], run[2]];
    ConcatThree(run[0], run[1], run[2]);
  }

  lemma ConcatOfFour(run: seq<string>)
    requires |run| == 4
    ensures Concat(run) == run[0] + run[1] + run[2] + run[3]
  {
    assert run == [run[0], run[1], run[2], run[3]];
    ConcatFour(run[0], run[1], run[2], run[3]);
  }

  lemma InfixOccurs(a: string, b: string, c: string)
    ensures OccursAt(a + b + c, b, |a|)
    ensures Contains(a + b + c, b)
  {
    assert (a + b + c)[|a|..|a| + |b|] == b;
    assert OccursAt(a + b + c, b, |a|);
  }
}

=== FILE: listing.dfy ===
/**
 * The job-listing sample data: only the fields the listing logic reads.
 */
module JobData {
  datatype Job = Job(id: int, matchPercent: int, liked: bool)

  /** The three sample listings, in listing order. */
  function SampleJobs(): (jobs: seq<Job>)
    ensures |jobs| == 3
  {
    [Job(1, 64, false), Job(2, 93, true), Job(3, 82, false)]
  }
}

/**
 * One card in the job list: its match-colour band, its heart, and what a
 * click on it does.
 */
module JobCard {
  import opened JobData
  import Js

  /** The colour band of the match badge (green, yellow or orange background). */
  datatype Band = Green | Yellow | Orange

  /** 80 and 60 are inclusive lower bounds of the green and yellow bands. */
  function MatchColor(matchPercent: int): (b: Band)
    ensures b == Green <==> matchPercent >= 80
    ensures b == Yellow <==> 60 <= matchPercent < 80
    ensures b == Orange <==> matchPercent < 60
  {
    if matchPercent >= 80 then Green
    else if matchPercent >= 60 then Yellow
    else Orange
  }

  /** Bands ordered from the lowest (orange) to the highest (green). */
  function BandRank(b: Band): nat {
    match b
    case Orange => 0
    case Yellow => 1
    case Green => 2
  }

  /** A higher match never gets a lower band. */
  lemma MatchColorMonotone(a: int, b: int)
    requires a <= b
    ensures BandRank(MatchColor(a)) <= BandRank(MatchColor(b))
  {
  }

  /** What the card shows that depends on its inputs. */
  datatype CardView = CardView(band: Band, heartFilled: bool)

  function View(job: Job, isLiked: bool): (v: CardView)
    ensures v.heartFilled <==> isLiked
    ensures v.band == MatchColor(job.matchPercent)
  {
    CardView(MatchColor(job.matchPercent), isLiked)
  }

  /** What a click on the card does, in the order the handlers run. */
  datatype CardAction = ToggleLike(id: int) | Navigate(path: string)

  /** Where the click landed: the heart button, or anywhere else on the card. */
  datatype ClickTarget = HeartButton | Elsewhere

  function CardPath(job: Job): (p: string)
    ensures |p| > 6 && p[..6] == "/jobs/"
  {
    "/jobs/" + Js.IntToString(job.id)
  }

  /**
   * As written: the heart button's handler runs, and then, because the click
   * bubbles up to the card's own onClick and nothing stops it, the card
   * navigates as well.
   */
  function ClickActions(job: Job, target: ClickTarget): (actions: seq<CardAction>)
    ensures Navigate(CardPath(job)) in actions
    ensures ToggleLike(job.id) in actions <==> target == HeartButton
  {
    match target
    case HeartButton => [ToggleLike(job.id), Navigate(CardPath(job))]
    case Elsewhere => [Navigate(CardPath(job))]
  }

  /** The heart toggles the like and also leaves the list page. */
  lemma HeartClickAlsoNavigates(job: Job)
    ensures ClickActions(job, HeartButton) == [ToggleLike(job.id), Navigate("/jobs/" + Js.IntToString(job.id))]
  {
  }

  /**
   * Intended: the heart only toggles the like (the click stops at the
   * button); a click anywhere else opens the job's page.
   */
  function IntendedClickActions(job: Job, target: ClickTarget): (actions: seq<CardAction>)
    ensures target == HeartButton ==> actions == [ToggleLike(job.id)]
    ensures target == Elsewhere ==> actions == [Navigate(CardPath(job))]
  {
    match target
    case HeartButton => [ToggleLike(job.id)]
    case Elsewhere => [Navigate(CardPath(job))]
  }

  /** The card's path identifies the job: distinct ids open distinct pages. */
  lemma CardPathInjective(a: Job, b: Job)
    requires CardPath(a) == CardPath(b)
    ensures a.id == b.id
  {
    assert CardPath(a)[6..] == Js.IntToString(a.id);
    assert CardPath(b)[6..] == Js.IntToString(b.id);
    Js.IntToStringInjective(a.id, b.id);
  }
}

/**
 * The home page: the liked/applied/matched id lists, the like toggle and the
 * sync of the list lengths into the header's counters.
 */
module Home {
  import opened JobData
  import JobCard

  /** `prev.filter(id => id !== jobId)` */
  function Without(ids: seq<int>, id: int): seq<int> {
    if ids == [] then []
    else (if ids[0] == id then [] else [ids[0]]) + Without(ids[1..], id)
  }

  /** Removing drops every occurrence of `id` and keeps every other id as often as before. */
  lemma {:induction false} WithoutCounts(ids: seq<int>, id: int)
    ensures multiset(Without(ids, id)) == multiset(ids)[id := 0]
  {
    if ids != [] {
      WithoutCounts(ids[1..], id);
      assert ids == [ids[0]] + ids[1..];
    }
  }

  /** Removing keeps the remaining ids in their original order: it yields a subsequence. */
  predicate IsSubsequence(a: seq<int>, b: seq<int>)
    decreases |b|
  {
    if a == [] then true
    else if b == [] then false
    else if a[0] == b[0] then IsSubsequence(a[1..], b[1..])
    else IsSubsequence(a, b[1..])
  }

  /** Membership after removal: every id but `id` stays, `id` is gone. */
  lemma WithoutMembership(ids: seq<int>, id: int, x: int)
    ensures x in Without(ids, id) <==> x in ids && x != id
  {
    WithoutCounts(ids, id);
    assert x in Without(ids, id) <==> x in multiset(Without(ids, id));
    assert x in ids <==> x in multiset(ids);
  }

  lemma {:induction false} WithoutIsSubsequence(ids: seq<int>, id: int)
    ensures IsSubsequence(Without(ids, id), ids)
  {
    if ids != [] {
      var rest := Without(ids[1..], id);
      WithoutIsSubsequence(ids[1..], id);
      if ids[0] != id {
        assert Without(ids, id) == [ids[0]] + rest;
        assert ([ids[0]] + rest)[1..] == rest;
      } else {
        assert Without(ids, id) == rest;
        if rest != [] {
          WithoutMembership(ids[1..], id, rest[0]);
        }
      }
    }
  }

  /** `prev.includes(jobId) ? prev.filter(id => id !== jobId) : [...prev, jobId]` */
  function Toggled(liked: seq<int>, id: int): (r: seq<int>)
    ensures id in liked ==> r == Without(liked, id)
    ensures id !in liked ==> r == liked + [id]
  {
    if id in liked then Without(liked, id) else liked + [id]
  }

  /** Toggling flips the membership of `id` and leaves every other id's membership alone. */
  lemma ToggleMembership(liked: seq<int>, id: int, x: int)
    ensures x in Toggled(liked, id) <==> (if x == id then id !in liked else x in liked)
  {
    if id in liked {
      WithoutCounts(liked, id);
      assert x in Toggled(liked, id) <==> x in multiset(Toggled(liked, id));
      assert x in liked <==> x in multiset(liked);
    }
  }

  /** Toggling twice restores membership (the id may have moved to the end). */
  lemma ToggleTwice(liked: seq<int>, id: int, x: int)
    ensures x in Toggled(Toggled(liked, id), id) <==> x in liked
  {
    ToggleMembership(liked, id, x);
    ToggleMembership(Toggled(liked, id), id, x);
    ToggleMembership(liked, id, id);
  }

  predicate Distinct(s: seq<int>) {
    forall i, j :: 0 <= i < j < |s| ==> s[i] != s[j]
  }

  lemma {:induction false} WithoutKeepsDistinct(ids: seq<int>, id: int)
    requires Distinct(ids)
    ensures Distinct(Without(ids, id))
  {
    if ids != [] {
      var rest := Without(ids[1..], id);
      WithoutKeepsDistinct(ids[1..], id);
      if ids[0] != id {
        WithoutMembership(ids[1..], id, ids[0]);
        assert ids[0] !in ids[1..];
        var r := [ids[0]] + rest;
        forall i, j | 0 <= i < j < |r|
          ensures r[i] != r[j]
        {
          if i == 0 {
            assert r[j] == rest[j - 1];
          }
        }
      }
    }
  }

  /** A duplicate-free liked list stays duplicate-free under toggling. */
  lemma ToggleKeepsDistinct(liked: seq<int>, id: int)
    requires Distinct(liked)
    ensures Distinct(Toggled(liked, id))
  {
    if id in liked {
      WithoutKeepsDistinct(liked, id);
    }
  }

  /** A duplicate-free list is as long as the set of ids it holds. */
  lemma {:induction false} DistinctLengthCountsIds(s: seq<int>)
    requires Distinct(s)
    ensures |set x | x in s| == |s|
  {
    if s != [] {
      var rest := s[1..];
      assert Distinct(rest) by {
        forall i, j | 0 <= i < j < |rest| ensures rest[i] != rest[j] {
          assert rest[i] == s[i + 1] && rest[j] == s[j + 1];
        }
      }
      DistinctLengthCountsIds(rest);
      assert s[0] !in rest by {
        forall j | 0 <= j < |rest| ensures rest[j] != s[0] {
          assert rest[j] == s[j + 1];
        }
      }
      assert (set x | x in s) == {s[0]} + (set x | x in rest) by {
        assert s == [s[0]] + rest;
      }
    }
  }

  /** `jobs.filter(j => j.liked).map(j => j.id)` */
  function LikedIds(jobs: seq<Job>): (ids: seq<int>)
    ensures forall x :: x in ids <==> exists j :: j in jobs && j.liked && j.id == x
  {
    if jobs == [] then []
    else
      var rest := LikedIds(jobs[1..]);
      assert forall j :: j in jobs <==> j == jobs[0] || j in jobs[1..];
      (if jobs[0].liked then [jobs[0].id] else []) + rest
  }

  /**
   * The positions of the liked jobs in `jobs`, in increasing order, each
   * counted from `base`: an independent account of which listings the liked
   * ids come from.
   */
  function LikedPositions(jobs: seq<Job>, base: nat): (ps: seq<nat>)
    ensures forall k :: 0 <= k < |ps| ==> base <= ps[k] < base + |jobs| && jobs[ps[k] - base].liked
    ensures forall k, l :: 0 <= k < l < |ps| ==> ps[k] < ps[l]
    ensures forall i :: base <= i < base + |jobs| && jobs[i - base].liked ==> i in ps
  {
    if jobs == [] then []
    else
      var rest := LikedPositions(jobs[1..], base + 1);
      (if jobs[0].liked then [base] else []) + rest
  }

  /**
   * The liked ids are the ids at the liked positions, one for one and in
   * listing order: the filter keeps the listing's order and repeats an id as
   * often as liked listings carry it.
   */
  lemma {:induction false} LikedIdsInListingOrder(jobs: seq<Job>, base: nat)
    ensures |LikedIds(jobs)| == |LikedPositions(jobs, base)|
    ensures forall k :: 0 <= k < |LikedIds(jobs)| ==> LikedIds(jobs)[k] == jobs[LikedPositions(jobs, base)[k] - base].id
  {
    if jobs != [] {
      LikedIdsInListingOrder(jobs[1..], base + 1);
      var ids := LikedIds(jobs);
      var ps := LikedPositions(jobs, base);
      var restIds := LikedIds(jobs[1..]);
      var restPs := LikedPositions(jobs[1..], base + 1);
      var d := if jobs[0].liked then 1 else 0;
      assert ids == (if jobs[0].liked then [jobs[0].id] else []) + restIds;
      assert ps == (if jobs[0].liked then [base] else []) + restPs;
      forall k | d <= k < |ids|
        ensures ids[k] == jobs[ps[k] - base].id
      {
        assert ids[k] == restIds[k - d];
        assert ps[k] == restPs[k - d];
        assert jobs[1..][restPs[k - d] - (base + 1)] == jobs[ps[k] - base];
      }
    }
  }

  /** `jobs.map(j => j.id)` */
  function Ids(jobs: seq<Job>): (ids: seq<int>)
    ensures |ids| == |jobs| && forall i :: 0 <= i < |jobs| ==> ids[i] == jobs[i].id
  {
    if jobs == [] then [] else [jobs[0].id] + Ids(jobs[1..])
  }

  /** On the sample data only job 2 starts liked, every job is matched, and job 1 is applied. */
  lemma SampleInitialLists()
    ensures LikedIds(SampleJobs()) == [2]
    ensures Ids(SampleJobs()) == [1, 2, 3]
    ensures JobCard.MatchColor(SampleJobs()[0].matchPercent) == JobCard.Yellow
    ensures JobCard.MatchColor(SampleJobs()[1].matchPercent) == JobCard.Green
    ensures JobCard.MatchColor(SampleJobs()[2].matchPercent) == JobCard.Green
  {
    var jobs := SampleJobs();
    assert jobs[1..] == [Job(2, 93, true), Job(3, 82, false)];
    assert jobs[1..][1..] == [Job(3, 82, false)];
    assert jobs[1..][1..][1..] == [];
  }

  class HomePage {
    var likedJobs: seq<int>
    const appliedJobs: seq<int>
    const matchedJobs: seq<int>
    /** The header's counters (owned by the header provider, written by this page's effect). */
    var matchedCount: int
    var likedCount: int
    var appliedCount: int

    constructor (jobs: seq<Job>)
      ensures likedJobs == LikedIds(jobs)
      ensures appliedJobs == [1]
      ensures matchedJobs == Ids(jobs)
      ensures matchedCount == 0 && likedCount == 0 && appliedCount == 0
    {
      likedJobs := LikedIds(jobs);
      appliedJobs := [1];
      matchedJobs := Ids(jobs);
      matchedCount, likedCount, appliedCount := 0, 0, 0;
    }

    method ToggleLike(id: int)
      modifies this`likedJobs
      ensures likedJobs == Toggled(old(likedJobs), id)
      ensures IsLiked(id) == !old(IsLiked(id))
      ensures forall x :: x != id ==> (IsLiked(x) <==> old(IsLiked(x)))
    {
      forall x {
        ToggleMembership(likedJobs, id, x);
      }
      if id in likedJobs {
        likedJobs := Without(likedJobs, id);
      } else {
        likedJobs := likedJobs + [id];
      }
    }

    /** The count-sync effect. */
    method SyncCounts()
      modifies this`matchedCount, this`likedCount, this`appliedCount
      ensures matchedCount == |matchedJobs| && likedCount == |likedJobs| && appliedCount == |appliedJobs|
    {
      matchedCount := |matchedJobs|;
      likedCount := |likedJobs|;
      appliedCount := |appliedJobs|;
    }

    /** `likedJobs.includes(id)`: some position of the liked list holds `id`. */
    function IsLiked(id: int): (b: bool)
      reads this
      ensures b <==> exists k :: 0 <= k < |likedJobs| && likedJobs[k] == id
    {
      id in likedJobs
    }

    /** The card list: one card per job, in listing order, told whether its job is liked. */
    function Cards(jobs: seq<Job>): (cards: seq<JobCard.CardView>)
      reads this
      ensures |cards| == |jobs|
      ensures forall i :: 0 <= i < |jobs| ==> (cards[i].heartFilled <==> jobs[i].id in likedJobs)
      ensures forall i :: 0 <= i < |jobs| ==> cards[i].band == JobCard.MatchColor(jobs[i].matchPercent)
    {
      seq(|jobs|, i reads this requires 0 <= i < |jobs| => JobCard.View(jobs[i], IsLiked(jobs[i].id)))
    }
  }
}

=== FILE: vapi_widget.dfy ===
/**
 * The voice-call widget: the handlers it registers on the voice SDK's event
 * stream, the call-control buttons and the transcript panel.
 *
 * `CallState` and `Handle` are the specification of one event; `Run` folds a
 * stream of events. The class `Widget` holds the component's state fields and
 * has one method per event handler, each proved to perform `Handle`.
 */
module VapiWidget {
  import opened Js

  /** `whoIsSpeaking` is 'user' | 'assistant' | null; null is `None`. */
  datatype Speaker = User | Assistant

  /** One transcript entry; the role is the raw string the SDK sent. */
  datatype TranscriptMessage = TranscriptMessage(role: string, text: string)

  /** A `message` event's payload: its `type`, `role` and `transcript` fields. */
  datatype VapiMessage = VapiMessage(kind: string, role: string, transcript: string)

  datatype CallEvent =
    | CallStart
    | CallEnd
    | SpeechStart
    | SpeechEnd
    | Message(message: VapiMessage)
    | Error(detail: string)

  /**
   * The state the event handlers read and write. `delivered` lists, in order,
   * every transcript handed to the `onCallEnd` callback.
   */
  datatype CallState = CallState(
    isConnected: bool,
    isSpeaking: bool,
    whoIsSpeaking: Option<Speaker>,
    transcript: seq<TranscriptMessage>,
    delivered: seq<seq<TranscriptMessage>>)

  function Initial(): (s: CallState)
    ensures !s.isConnected && !s.isSpeaking && s.whoIsSpeaking == None
    ensures s.transcript == [] && s.delivered == []
  {
    CallState(false, false, None, [], [])
  }

  predicate IsTranscript(e: CallEvent) {
    e.Message? && e.message.kind == "transcript"
  }

  /** The entry a transcript message appends. */
  function Entry(m: VapiMessage): TranscriptMessage {
    TranscriptMessage(m.role, m.transcript)
  }

  /** The effect of one event on the widget's state. */
  function Handle(s: CallState, e: CallEvent): (t: CallState)
    // the transcript only ever grows, by exactly the one entry of a transcript message
    ensures t.transcript == if IsTranscript(e) then s.transcript + [Entry(e.message)] else s.transcript
    // the callback fires on every call-end, with the whole transcript so far, and never otherwise
    ensures t.delivered == if e.CallEnd? then s.delivered + [s.transcript] else s.delivered
    ensures e.CallStart? ==> t == s.(isConnected := true)
    ensures e.CallEnd? ==> !t.isConnected && !t.isSpeaking && t.whoIsSpeaking == None
    ensures e.SpeechStart? ==> t.isSpeaking && t.whoIsSpeaking == Some(User)
    ensures e.SpeechEnd? ==> !t.isSpeaking && t.whoIsSpeaking == None
    // messages never touch the connection or speaking flags; only an assistant transcript moves the speaker
    ensures e.Message? ==> t.isConnected == s.isConnected && t.isSpeaking == s.isSpeaking
    ensures e.Message? ==>
              t.whoIsSpeaking == (if IsTranscript(e) && e.message.role == "assistant" then Some(Assistant) else s.whoIsSpeaking)
    ensures e.Error? || (e.Message? && !IsTranscript(e)) ==> t == s
  {
    match e
    case CallStart => s.(isConnected := true)
    case CallEnd =>
      s.(isConnected := false, isSpeaking := false, whoIsSpeaking := None,
         delivered := s.delivered + [s.transcript])
    case SpeechStart => s.(isSpeaking := true, whoIsSpeaking := Some(User))
    case SpeechEnd => s.(isSpeaking := false, whoIsSpeaking := None)
    case Message(m) =>
      if m.kind == "transcript" then
        var s' := s.(transcript := s.transcript + [Entry(m)]);
        if m.role == "assistant" then s'.(whoIsSpeaking := Some(Assistant)) else s'
      else s
    case Error(_) => s
  }

  /** The state after handling `events` in order. */
  function Run(s: CallState, events: seq<CallEvent>): CallState
    decreases |events|
  {
    if events == [] then s else Run(Handle(s, events[0]), events[1..])
  }

  /** The entries the transcript messages among `events` contribute, in order. */
  function TranscriptOf(events: seq<CallEvent>): seq<TranscriptMessage> {
    if events == [] then []
    else (if IsTranscript(events[0]) then [Entry(events[0].message)] else []) + TranscriptOf(events[1..])
  }

  function CallEnds(events: seq<CallEvent>): nat {
    if events == [] then 0 else (if events[0].CallEnd? then 1 else 0) + CallEnds(events[1..])
  }

  /** The transcript is append-only and never reset: a run appends exactly its transcript messages. */
  lemma {:induction false} RunTranscript(s: CallState, events: seq<CallEvent>)
    ensures Run(s, events).transcript == s.transcript + TranscriptOf(events)
    decreases |events|
  {
    if events != [] {
      var t := Handle(s, events[0]);
      assert Run(s, events) == Run(t, events[1..]);
      RunTranscript(t, events[1..]);
    }
  }

  /** `call-end` is not de-duplicated: the callback fires once per `call-end` event. */
  lemma {:induction false} RunDeliveries(s: CallState, events: seq<CallEvent>)
    ensures |Run(s, events).delivered| == |s.delivered| + CallEnds(events)
    ensures Run(s, events).delivered[..|s.delivered|] == s.delivered
    decreases |events|
  {
    if events != [] {
      RunDeliveries(Handle(s, events[0]), events[1..]);
    }
  }

  /** Every delivered transcript is a prefix of the current transcript. */
  predicate DeliveriesArePrefixes(s: CallState) {
    forall k :: 0 <= k < |s.delivered| ==> s.delivered[k] <= s.transcript
  }

  /**
   * The user is only marked as speaking while `isSpeaking` holds: only
   * `speech-start` names the user, and everything that clears `isSpeaking`
   * also clears or replaces the speaker.
   */
  predicate UserSpeakingIsSpeaking(s: CallState) {
    s.whoIsSpeaking == Some(User) ==> s.isSpeaking
  }

  lemma HandlePreserves(s: CallState, e: CallEvent)
    requires DeliveriesArePrefixes(s) && UserSpeakingIsSpeaking(s)
    ensures DeliveriesArePrefixes(Handle(s, e)) && UserSpeakingIsSpeaking(Handle(s, e))
  {
    var t := Handle(s, e);
    forall k | 0 <= k < |t.delivered|
      ensures t.delivered[k] <= t.transcript
    {
      if k < |s.delivered| {
        assert t.delivered[k] == s.delivered[k];
      }
    }
  }

  lemma {:induction false} RunPreserves(s: CallState, events: seq<CallEvent>)
    requires DeliveriesArePrefixes(s) && UserSpeakingIsSpeaking(s)
    ensures DeliveriesArePrefixes(Run(s, events)) && UserSpeakingIsSpeaking(Run(s, events))
    decreases |events|
  {
    if events != [] {
      HandlePreserves(s, events[0]);
      RunPreserves(Handle(s, events[0]), events[1..]);
    }
  }

  /** From the initial state, every reachable state keeps both invariants. */
  lemma ReachableInvariants(events: seq<CallEvent>)
    ensures DeliveriesArePrefixes(Run(Initial(), events))
    ensures UserSpeakingIsSpeaking(Run(Initial(), events))
  {
    RunPreserves(Initial(), events);
  }

  /**
   * A call with one user utterance: the callback receives the raw 'user' role,
   * and a second `call-end` delivers the same transcript a second time.
   */
  lemma UserUtteranceThenTwoCallEnds()
    ensures var hi := Message(VapiMessage("transcript", "user", "hi"));
      Run(Initial(), [CallStart, hi, CallEnd]).delivered == [[TranscriptMessage("user", "hi")]]
      && Run(Initial(), [CallStart, hi, CallEnd, CallEnd]).delivered
         == [[TranscriptMessage("user", "hi")], [TranscriptMessage("user", "hi")]]
  {
    var hi := Message(VapiMessage("transcript", "user", "hi"));
    var s1 := Handle(Initial(), CallStart);
    var s2 := Handle(s1, hi);
    var s3 := Handle(s2, CallEnd);
    RunStep(s3, CallEnd, []);
    RunStep(s2, CallEnd, []);
    assert [CallEnd] + [] == [CallEnd];
    assert [hi] + [CallEnd] == [hi, CallEnd];
    assert [CallStart] + [hi, CallEnd] == [CallStart, hi, CallEnd];
    assert s2.transcript == [TranscriptMessage("user", "hi")];
    RunStep(s2, CallEnd, [CallEnd]);
    RunStep(s1, hi, [CallEnd]);
    RunStep(s1, hi, [CallEnd, CallEnd]);
    RunStep(Initial(), CallStart, [hi, CallEnd]);
    RunStep(Initial(), CallStart, [hi, CallEnd, CallEnd]);
  }

  lemma RunStep(s: CallState, e: CallEvent, rest: seq<CallEvent>)
    ensures Run(s, [e] + rest) == Run(Handle(s, e), rest)
  {
    assert ([e] + rest)[1..] == rest;
  }

  /** A command the widget issues to the voice SDK. */
  datatype SdkCommand = Start(assistantId: string) | Stop | SetMuted(muted: bool)

  /** The main button: "End Call" while connected, otherwise "Start Call". */
  function MainButtonCommand(isConnected: bool, assistantId: string): (c: SdkCommand)
    ensures c.Stop? <==> isConnected
    ensures c.Start? <==> !isConnected
    ensures c.Start? ==> c.assistantId == assistantId
  {
    if isConnected then Stop else Start(assistantId)
  }

  /** The mic button: shows MicOff while muted and unmutes, otherwise mutes. */
  function MicButtonCommand(muted: bool): (c: SdkCommand)
    ensures c.SetMuted? && c.muted == !muted
  {
    SetMuted(!muted)
  }

  class Widget {
    const assistantId: string
    /** Whether the SDK client (`vapi`) exists; it is created by the mount effect. */
    var hasClient: bool
    var isConnected: bool
    var isSpeaking: bool
    var whoIsSpeaking: Option<Speaker>
    var transcript: seq<TranscriptMessage>
    var showTranscript: bool
    /** Transcripts passed to `onCallEnd`, in order. */
    var delivered: seq<seq<TranscriptMessage>>
    /** Commands sent to the SDK, in order. */
    var commands: seq<SdkCommand>

    function State(): CallState
      reads this
    {
      CallState(isConnected, isSpeaking, whoIsSpeaking, transcript, delivered)
    }

    constructor (assistantId: string)
      ensures this.assistantId == assistantId
      ensures State() == Initial()
      ensures !showTranscript && !hasClient && commands == []
    {
      this.assistantId := assistantId;
      hasClient := false;
      isConnected := false;
      isSpeaking := false;
      whoIsSpeaking := None;
      transcript := [];
      showTranscript := false;
      delivered := [];
      commands := [];
    }

    /** The mount effect creates the SDK client and registers the handlers below. */
    method Mount()
      modifies this`hasClient
      ensures hasClient
    {
      hasClient := true;
    }

    /** Unmount cleanup: `vapiInstance?.stop()` on the instance the effect created. */
    method Unmount()
      requires hasClient
      modifies this`commands
      ensures commands == old(commands) + [Stop]
    {
      commands := commands + [Stop];
    }

    method OnCallStart()
      modifies this
      ensures State() == Handle(old(State()), CallStart)
      ensures unchanged(this`hasClient, this`showTranscript, this`commands)
    {
      isConnected := true;
    }

    method OnCallEnd()
      modifies this
      ensures State() == Handle(old(State()), CallEnd)
      ensures unchanged(this`hasClient, this`showTranscript, this`commands)
    {
      isConnected := false;
      isSpeaking := false;
      whoIsSpeaking := None;
      delivered := delivered + [transcript];
    }

    method OnSpeechStart()
      modifies this
      ensures State() == Handle(old(State()), SpeechStart)
      ensures unchanged(this`hasClient, this`showTranscript, this`commands)
    {
      isSpeaking := true;
      whoIsSpeaking := Some(User);
    }

    method OnSpeechEnd()
      modifies this
      ensures State() == Handle(old(State()), SpeechEnd)
      ensures unchanged(this`hasClient, this`showTranscript, this`commands)
    {
      isSpeaking := false;
      whoIsSpeaking := None;
    }

    method OnMessage(m: VapiMessage)
      modifies this
      ensures State() == Handle(old(State()), Message(m))
      ensures unchanged(this`hasClient, this`showTranscript, this`commands)
    {
      if m.kind == "transcript" {
        transcript := transcript + [TranscriptMessage(m.role, m.transcript)];
        if m.role == "assistant" {
          whoIsSpeaking := Some(Assistant);
        }
      }
    }

    /** The error handler only logs. */
    method OnError(detail: string)
      modifies this
      ensures State() == Handle(old(State()), Error(detail))
      ensures unchanged(this`hasClient, this`showTranscript, this`commands)
    {
    }

    /** `isConnected ? endCall : startCall`; both do nothing while there is no client. */
    method PressMainButton()
      modifies this`commands
      ensures commands == if hasClient then old(commands) + [MainButtonCommand(isConnected, assistantId)]
                          else old(commands)
    {
      if hasClient {
        if isConnected {
          commands := commands + [Stop];
        } else {
          commands := commands + [Start(assistantId)];
        }
      }
    }

    /**
     * The mic button as last rendered: `renderedMuted` is what `vapi.isMuted()`
     * returned at that render, and picks both the icon and the command. The
     * widget keeps no mute state of its own and nothing re-renders it after a
     * press, so pressing again sends the same command. Without a client the
     * button does nothing.
     */
    method PressMicButton(renderedMuted: bool)
      modifies this`commands
      ensures hasClient ==> commands == old(commands) + [MicButtonCommand(renderedMuted)]
      ensures !hasClient ==> commands == old(commands)
    {
      if hasClient {
        if renderedMuted {
          commands := commands + [SetMuted(false)];
        } else {
          commands := commands + [SetMuted(true)];
        }
      }
    }

    /** The "Open Transcript" button. */
    method ToggleTranscriptPanel()
      modifies this`showTranscript
      ensures showTranscript == !old(showTranscript)
    {
      showTranscript := !showTranscript;
    }

    /** The panel's close button. */
    method CloseTranscriptPanel()
      modifies this`showTranscript
      ensures !showTranscript
    {
      showTranscript := false;
    }
  }
}
